=== FILE: README.md ===
# kvazar playback core in Dafny

This project models the core of kvazar, a Discord music bot written in Go:

- the per-guild playback state machine of `internal/bot/player.go`: queue, current track, loop flag, skip, shutdown, the play loop and the idle-disconnect timer;
- the pure helpers in that file: the ffmpeg argument list with its sorted header block, the little-endian s16 PCM decode, and how one streaming step ends;
- the guild-to-player registry of `internal/bot/bot.go`, `Close`'s shutdown fan-out, and the message helpers: `pickOrDefault`, the two embeds and the first checks of `/play`;
- query preparation and metadata mapping in `internal/media/resolver.go`;
- `Label` and `HumanDuration` in `internal/media/track.go`.

Each section that runs under the player's mutex is one atomic transition on an immutable `Player` record. The play-loop goroutine is the record's `task` field, which says where the goroutine stands between two of its locked sections:

- not running;
- about to call `nextTrack`;
- holding a nil result, before it parks;
- holding a track, before it installs the cancel handle;
- streaming.

An interleaving of the Go code is therefore a sequence of `Playback.Event`s. `Playback.Run` executes such a sequence.

Modules and files:

| file | module | models |
|---|---|---|
| wrappers.dfy | `Wrappers` | `Option` and `Result` |
| text.dfy | `Text` | Go's `unicode.IsSpace`, `strings.TrimSpace`, `strings.ToLower` (see Left out), `HasPrefix`, `Contains`, `Join` |
| decimal.dfy | `Decimal` | `%d` and `%02d` formatting, a digit parser, `strings.Split` on ":" |
| gomaps.dfy | `GoMaps` | map iteration, as an explicit order that lists every key once |
| track.dfy | `Tracks` | `Track`, `Label`, `HumanDuration`, Go's truncating `/` and `%` |
| resolver.dfy | `Resolve` | `NewResolver`, `looksLikeURL`, `prepareQuery`, `fallbackURL`, `mapPayloadToTrack` |
| pcm.dfy | `Pcm` | frame constants, PCM decode, `io.ReadFull` outcomes, one `streamTrack` iteration and a whole stream |
| ffmpeg.dfy | `Ffmpeg` | `headersToLines` (with `sort.Strings`), `buildFFMpegArgs` |
| player.dfy | `Playback` | the `Player` state machine, its invariant, and the corrected idle step |
| registry.dfy | `Registry` | `getPlayer`, `findPlayer`, `releasePlayer`, `snapshotPlayers`, `Close`'s fan-out, the timer's release |
| messages.dfy | `Messages` | `pickOrDefault`, `buildQueuedEmbed`, `buildNowPlayingEmbed`, `handlePlay`'s checks |

Behaviours of the code worth knowing:

- Looping replays the current track in place (`nextTrack`, player.go:180-182). It does not put the finished track back at the tail of the queue. See `Playback.LoopReplaysInPlace`.
- The position `Enqueue` reports is the queue length after the append (player.go:84-85). A track that is already playing is not counted. Enqueueing A and then B on an idle player reports 1 for A. B gets 2 only if the play loop has not yet taken A off the queue; otherwise B also gets 1. See `Playback.PositionIgnoresCurrent`.
- `Skip` reports `current != nil`, even when no cancel handle exists yet and it therefore does nothing (player.go:99-107). See `Playback.SkipBeforeStreamIsLost`.
- `Shutdown` clears neither the queue nor `loop`. Every stream after it fails at once for want of a voice connection (`Playback.StreamAfterShutdownFails`). Without looping, the loop therefore runs through the queue, failing each track in turn. With looping on and no skip pending, it replays the current track forever: each round fails and starts the same track again, and the queue is never reached. See `Playback.LoopingAfterShutdownSpins`.
- The disconnect timer's callback clears the voice handle in one locked section and releases the guild afterwards, outside the player's lock (player.go:281-292). A track enqueued in between finds the player still registered and sets it playing; the release then drops that player from the registry anyway, and the guild's next command creates a second player while the first one still plays. See `Registry.TimerEvictsPlayingPlayer`.
- The loop flag can outlive its track. Skip a looping track, switch looping on again before the stream winds down, and let the queue run dry: the player idles with `loop` on and nothing current. The next enqueued track then repeats. See `Playback.LoopOutlivesTrack`.

## Model

| member | source | states |
|---|---|---|
| Tracks.Label | internal/media/track.go:35-41 | the label is the trimmed title, " — ", then the source, with "Unknown" for an empty source |
| Tracks.LabelIgnoresTitlePadding | internal/media/track.go:40 | white space around the title never reaches the label |
| Tracks.HumanDuration | internal/media/track.go:44-47 | the rendering is "live" if and only if the duration is exactly zero |
| Tracks.Decompose | internal/media/track.go:48-51 | for a non-negative second count, minutes and seconds fall in 0..59 and hours is non-negative |
| Tracks.ClockText | internal/media/track.go:52-55 | every clock rendering holds a colon, so it can never be mistaken for "live" |
| Tracks.GoDivMod | internal/media/track.go:49-51 | Go's truncating quotient and remainder rebuild the dividend, and the remainder takes the dividend's sign |
| Tracks.DecomposeSound | internal/media/track.go:48-51 | hours·3600 + minutes·60 + secs equals the whole seconds; for a non-negative count, minutes and secs are below 60 and hours = s/3600 |
| Tracks.HumanDurationRoundTrip | internal/media/track.go:48-55 | a positive duration renders, split at its colons, as exactly the pieces `%d` of the hours (only from one hour up, with no leading zero), `%02d` of the minutes and `%02d` of the seconds, where hours = seconds/3600 and minutes and seconds are below 60; the rendering parses back to its whole seconds |
| Tracks.ClockTextRoundTrip | internal/media/track.go:52-55 | a clock with minutes and seconds below 60 splits at its colons into exactly `%d` of the hours (only when positive, with no leading zero), `%02d` of the minutes and `%02d` of the seconds, and those pieces parse back to its seconds |
| Tracks.SubSecondRendersZeroClock | internal/media/track.go:45-55 | a positive duration under one second renders "00:00", not "live" |
| Decimal.ParsePad2 | internal/media/track.go:53-55 | a `%02d` rendering parses back to its number and is two characters below 100 |
| Decimal.ParseDigits | internal/media/track.go:53 | a `%d` rendering of a natural number parses back to it |
| Resolve.NewResolver | internal/media/resolver.go:28-33 | a blank path becomes "yt-dlp", any other path is kept as given, and the timeout is always 20 s |
| Resolve.LooksLikeURL | internal/media/resolver.go:146-152 | without "://" the value is never a URL; a URL must also pass the parse check |
| Resolve.PrepareQuery | internal/media/resolver.go:131-144 | the result is empty exactly for blank input; a URL comes back trimmed; an "sc " query becomes "scsearch:" plus the trimmed remainder after the three-character marker; anything else becomes "ytsearch:" plus the trimmed query |
| Resolve.ScMarkerIsAscii | internal/media/resolver.go:139-141 | the case-insensitive "sc " marker is three ASCII characters, so cutting three characters off the trimmed query is exact |
| Resolve.SearchTermNonBlank | internal/media/resolver.go:139-143 | a query that is neither blank nor a URL becomes a search prefix plus a term that is non-empty, has no white space at either end, and is the trimmed remainder after "sc " for a SoundCloud search, else the whole trimmed query |
| Resolve.FallbackURL | internal/media/resolver.go:154-161 | the result is "" or one of the arguments |
| Resolve.FallbackURLFirst | internal/media/resolver.go:154-161 | the result is the first argument that is not blank, returned untrimmed, and "" only when every argument is blank |
| Resolve.SourceOf | internal/media/resolver.go:109-116 | YouTube if and only if the lower-cased key contains "youtube"; SoundCloud if and only if it contains "soundcloud" but not "youtube"; Unknown otherwise |
| Resolve.SourceOfIgnoresCase | internal/media/resolver.go:110 | the classification does not depend on letter case |
| Resolve.MapPayloadToTrack | internal/media/resolver.go:118-128 | the stream URL is the item's URL, the web URL is `fallbackURL(webpage URL, URL)`, the source is `sourceOf` of the extractor key, id, title, thumbnail, duration and headers are the item's, and the requester fields are empty |
| Resolve.WebURLFallsBack | internal/media/resolver.go:122-123 | the web URL is the page URL if that is not blank, else the stream URL if that is not blank, else "" |
| Pcm.ToInt16 | internal/bot/player.go:258 | the `int16` conversion of a `uint16` lands in int16 range and equals u or u − 65536 |
| Pcm.DecodeEncode | internal/bot/player.go:257-259 | decoding the little-endian bytes of int16 samples gives the samples back |
| Pcm.EncodeDecode | internal/bot/player.go:257-259 | every even-length byte string decodes to int16 samples whose encoding is the same bytes, so the decode loses nothing |
| Pcm.DecodeFrame | internal/bot/player.go:232-233 | a 3840-byte frame decodes, by the loop, into 1920 int16 samples, sample i being built from bytes 2i and 2i+1 |
| Pcm.ReadFrame | internal/bot/player.go:250-255 | a read yields a full frame exactly when 3840 bytes are available, and that frame is the first 3840 bytes |
| Pcm.Step | internal/bot/player.go:245-273 | cancellation is checked first; EOF and a short read complete normally; other read errors fail; a frame is sent exactly when not cancelled, read in full, encoded and not cancelled during the send; the sent frame is the decoded bytes; a failed encode fails the stream; a cancellation during the send ends it Canceled |
| Pcm.DecodeSamples | internal/bot/player.go:257-259 | n bytes decode to n/2 samples, each in int16 range |
| Pcm.RunStream | internal/bot/player.go:197-275 | frames are sent only with a voice connection and at least one full frame of input; without a voice connection nothing is sent and the stream fails |
| Pcm.RunStreamOutcome | internal/bot/player.go:245-274 | a stream sends one decoded frame per full 3840 bytes and drops a partial tail; cancelled at iteration k it sends k frames and ends Canceled; otherwise it completes on a clean end and fails on a pipe error |
| Pcm.RunStreamCount | internal/bot/player.go:245-274 | a stream cancelled at iteration k sends k frames and ends Canceled; otherwise it sends one frame per full 3840 bytes and completes on a clean end, failing on a pipe error |
| Pcm.RunStreamFrames | internal/bot/player.go:250-259 | frame i of a stream is the decode of bytes 3840i up to 3840(i + 1) |
| Pcm.NoVoiceFails | internal/bot/player.go:202-204 | without a voice connection the stream fails at once with nothing sent |
| Ffmpeg.LessTotal | internal/bot/player.go:335 | Go's string order is total |
| Ffmpeg.LessTransitive | internal/bot/player.go:335 | Go's string order is transitive |
| Ffmpeg.Sort | internal/bot/player.go:335 | sorting yields a permutation of its input |
| Ffmpeg.SortSorted | internal/bot/player.go:335 | sorting yields ascending order |
| Ffmpeg.SortedUnique | internal/bot/player.go:335 | two ascending permutations of the same strings are equal, so the sorted lines are determined by their multiset |
| GoMaps.OrdersArePermutations | internal/bot/player.go:332 | any two iteration orders of one map are permutations of each other |
| GoMaps.OrderLength | internal/bot/player.go:331-334 | an iteration order has one entry per map key |
| Ffmpeg.LinesPermutation | internal/bot/player.go:331-334 | re-ordering the keys only re-orders the "k: v" lines |
| Ffmpeg.HeadersIndependentOfOrder | internal/bot/player.go:327-337 | the header block is the same for every map iteration order |
| Ffmpeg.HeadersToLines | internal/bot/player.go:327-337 | the block is "" exactly when there are no headers, and otherwise ends in CRLF |
| Ffmpeg.HeadersToLinesShape | internal/bot/player.go:327-337 | the block is "" exactly when there are no headers; otherwise it is one "k: v" line per header, ascending, each ending in CRLF |
| Ffmpeg.JoinTerminated | internal/bot/player.go:336 | joining with CRLF and adding a final CRLF ends every line with CRLF |
| Ffmpeg.BuildFFMpegArgs | internal/bot/player.go:303-325 | the arguments begin with the six reconnect flags, end with the ten input/output flags, and hold "-headers" and the block in between exactly when the block is non-empty |
| Ffmpeg.FFMpegArgsFacts | internal/bot/player.go:315-322 | the tail is "-i", the stream URL, "-vn -f s16le -ac 2 -ar 48000 pipe:1", and "-headers" occurs if and only if the track has headers |
| Playback.NewPlayer | internal/bot/player.go:48-51 | a new player is idle, bound to its guild, with nothing queued, no voice and no timer, and satisfies the invariant |
| Playback.Connect | internal/bot/player.go:73-75 | a successful join stores a voice handle and changes nothing else |
| Playback.CancelDisconnectTimer | internal/bot/player.go:296-301 | afterwards no timer is pending; nothing else changes |
| Playback.ScheduleDisconnect | internal/bot/player.go:277-294 | afterwards exactly one timer is pending; nothing else changes |
| Playback.Enqueue | internal/bot/player.go:80-94 | the track is appended at the tail; the position is the new queue length, at least 1, not counting the current track; the timer is disarmed; `playing` is set; a loop starts only if none ran |
| Playback.EnqueueAllAppends | internal/bot/player.go:84-85 | tracks enqueued one after another line up in order, and their positions count up from the old queue length |
| Playback.PositionIgnoresCurrent | internal/bot/player.go:84-85 | a track enqueued while another plays, with the queue empty, is told position 1 |
| Playback.Skip | internal/bot/player.go:97-108 | the result is exactly whether a track is current; only with a cancel handle does it request a skip, clear `loop` and fire the cancel, and otherwise nothing changes |
| Playback.SkipAdvances | internal/bot/player.go:180-194 | after a skip during a stream the loop moves to the queue head, or parks with nothing current, even when looping was on |
| Playback.SkipBeforeStreamIsLost | internal/bot/player.go:99-107 | a skip between `nextTrack` and installing the cancel handle reports success and changes nothing |
| Playback.ToggleLoop | internal/bot/player.go:111-121 | an explicit value sets `loop` to value ∧ current present; no value flips `loop` only while a track is current; the result is the new flag; looping is never switched on with nothing current |
| Playback.ToggleTwiceRestores | internal/bot/player.go:117-118 | toggling twice with no value restores the player |
| Playback.LoopOutlivesTrack | internal/bot/player.go:111-121 | a reachable run ends idle with `loop` on and no current track |
| Playback.Shutdown | internal/bot/player.go:124-136 | the voice handle is dropped and a present cancel handle is fired; queue, current track and loop state stay |
| Playback.ShutdownIdempotent | internal/bot/player.go:124-136 | shutting down twice is shutting down once |
| Playback.StreamAfterShutdownFails | internal/bot/player.go:202-204 | after a shutdown every stream fails at once and sends nothing |
| Playback.LoopingAfterShutdownSpins | internal/bot/player.go:124-136 | after shutting down a looping stream with no skip pending, one round of finish, `nextTrack` and start returns to the same streaming state with the same queue, its stream fails for want of voice, and the next round repeats it exactly |
| Playback.NextTrack | internal/bot/player.go:176-195 | with `loop` on, a current track and no pending skip, the current track is returned as a repeat and nothing changes; otherwise the skip request is cleared and the head is popped into `current`, or with an empty queue `current` is cleared and nothing is returned |
| Playback.LoopReplaysInPlace | internal/bot/player.go:180-182 | when a looping stream ends without a skip, the same track starts again and the queue is untouched |
| Playback.HandedInQueueOrder | internal/bot/player.go:184-194 | without looping, successive `nextTrack` calls hand out the queue first in, first out, then nothing |
| Playback.SelectStep | internal/bot/player.go:140 | with `loop` on, a current track and no pending skip, the loop starts the current track again and nothing else changes; otherwise the skip request is cleared and either the queue head is popped into `current` and started, or, with an empty queue, `current` is cleared and the loop parks |
| Playback.ParkStep | internal/bot/player.go:141-146 | parking stops playing, arms the timer and ends the loop; nothing else changes |
| Playback.BeginStream | internal/bot/player.go:153-156 | a fresh, unfired cancel handle is installed for the held track and the loop moves to streaming; nothing else changes |
| Playback.FinishStream | internal/bot/player.go:160-173 | the cancel handle is cleared and the loop returns to `nextTrack`, whatever the outcome; nothing else changes |
| Playback.TimerFires | internal/bot/player.go:281-286 | the firing timer drops the voice handle and itself; nothing else changes |
| Playback.Step | internal/bot/player.go:138-174 | a transition keeps the guild; an enqueue appends its track; a `nextTrack` step leaves the queue or pops its head; every other transition leaves the queue alone |
| Playback.Run | internal/bot/player.go:138-174 | running no events changes nothing; a run keeps the guild, and the queue grows by at most the number of enqueues in it |
| Playback.StepPreservesInv | internal/bot/player.go:138-174 | every transition keeps the invariant `Playback.Inv`: a loop runs exactly while `playing`; a cancel handle exists exactly while streaming; a pending timer means no loop; the held track is the current one |
| Playback.RunAppend | internal/bot/player.go:138-174 | running one event sequence after another is running their concatenation, and a disabled event in the first stops both |
| Playback.RunPreservesInv | internal/bot/player.go:138-174 | every state reachable by events satisfies the invariant |
| Playback.StrandedTrack | internal/bot/player.go:140-146 | as written, a reachable state has a queued track, no play loop and the disconnect timer armed |
| Playback.SelectStepFixed | internal/bot/player.go:140-146 | the corrected idle step does `nextTrack` and the parking in one locked section |
| Playback.StepFixedPreservesInv | internal/bot/player.go:138-174 | with the corrected idle step, every transition keeps the invariant plus "no loop means an empty queue" |
| Playback.NoStrandedTrack | internal/bot/player.go:138-146 | with the corrected idle step, no reachable state holds a queued track without a play loop |
| Playback.NoStrandedTrackFromNew | internal/bot/player.go:138-146 | the same holds for every run that starts from a new player |
| Registry.GetPlayer | internal/bot/bot.go:417-426 | the guild maps to the returned player afterwards; an existing entry is returned with nothing changed; otherwise a fresh player is added and every other guild is unchanged |
| Registry.GetPlayerStable | internal/bot/bot.go:417-426 | a repeated call returns the same player and changes nothing |
| Registry.FindPlayer | internal/bot/bot.go:428-432 | a lookup finds something exactly when the guild is registered, and that is its player |
| Registry.FindAfterGet | internal/bot/bot.go:428-432 | what `getPlayer` registered, `findPlayer` finds |
| Registry.ReleasePlayer | internal/bot/bot.go:434-438 | only the guild's entry goes; an absent guild leaves the registry unchanged |
| Registry.ReleaseThenGet | internal/bot/bot.go:434-438 | after a release the guild is not found, and the next `getPlayer` creates a different player |
| Registry.SnapshotPlayers | internal/bot/bot.go:440-448 | the snapshot holds one player per guild, in iteration order, and exactly the registered players |
| Registry.GetBotPlayer | internal/bot/bot.go:423-424 | a created player is idle and bound to the guild; an existing one is returned untouched |
| Registry.NewBot | internal/bot/bot.go:49-55 | a new bot has no registered guild and no player, and satisfies the registry invariant |
| Registry.TimerFired | internal/bot/player.go:282-286 | the callback's locked section does to the player exactly what `Playback.TimerFires` does (drops its voice and timer, nothing else), leaves the registry and every other player alone, and keeps the invariant |
| Registry.ReleaseGuild | internal/bot/player.go:292 | the callback's release removes exactly the guild's entry, touches no player, and keeps the invariant |
| Registry.BotEnqueue | internal/bot/player.go:80-94 | an enqueue changes only that player, as `Playback.Enqueue` does, and keeps the invariant |
| Registry.TimerEvictsPlayingPlayer | internal/bot/player.go:281-292 | a track enqueued between the callback's two sections leaves a playing player that the release then drops from the registry, and the guild's next lookup creates a different player |
| Registry.ShutdownOnce | internal/bot/bot.go:92-94 | shutting down a listed player once or twice leaves it shut down |
| Registry.ShutdownEach | internal/bot/bot.go:92-94 | every listed player is shut down and no other |
| Registry.Close | internal/bot/bot.go:92-94 | exactly the registered players are shut down; the registry is unchanged |
| Messages.PickOrDefault | internal/bot/bot.go:587-592 | the fallback for a blank value, else the value unchanged |
| Messages.FFMpegPathNeverBlank | internal/bot/bot.go:52 | the ffmpeg path the bot uses is never blank |
| Messages.NewResolverPicksDefault | internal/media/resolver.go:28-33 | the resolver's executable default follows the same rule as `pickOrDefault` |
| Messages.QueuedEmbed | internal/bot/bot.go:594-619 | the title begins "Следеће • " if and only if the position is 1, else "У реду • "; the fields are duration and source, then the requester only when there is one, then the position as "#n" last |
| Messages.PositionReadsBack | internal/bot/bot.go:607 | the position field reads back as the position `Enqueue` returned |
| Messages.NextExactlyWhenQueueWasEmpty | internal/bot/bot.go:596-598 | the queued embed says "next" exactly when the queue was empty before the append |
| Messages.NowPlayingEmbed | internal/bot/bot.go:621-638 | the title begins "Понавља • " if and only if looping, else "Сада • "; the fields are exactly duration and source |
| Messages.ValidatePlay | internal/bot/bot.go:156-171 | in order: no option gives the "enter a query or URL" error; a blank query gives "enter a query"; an empty guild gives "server only"; otherwise the trimmed query and the guild pass |
| Messages.AcceptedQueryIsClean | internal/bot/bot.go:161-165 | padding the option with white space does not change the verdict; an accepted query is trimmed, not blank, and gives the resolver a non-empty argument |

## Left out

- Discord I/O is not modelled: the session, interaction responses, followups, buttons, command registration and the sending in `announceNowPlaying`. The "now playing" announcement decision is also left out. `commands.go` is a static table and is not part of this model.
- `EnsureConnected`'s voice join, disconnect and 350 ms sleep are left out, as is `locateVoiceChannel`. Only the stored voice handle is modelled, as `Playback.Connect`.
- `Pause` and `Stop` are called from bot.go but not defined in player.go. They are not part of this model.
- Inside `streamTrack`, the ffmpeg process, the Opus encoder, the `OpusSend` channel and the `Speaking` calls are left out. Their effects are parameters of `Pcm.Step`: the bytes read, whether encoding succeeded, and which way the `select` went. `Pcm.RunStream`, the whole-stream model, takes only the bytes read and the point of a cancellation; it fixes the other two to a successful encode and a send that is not pre-empted.
- Goroutines, mutexes and `time.AfterFunc` are not modelled as such. Each locked section is one atomic event, and the timer is an armed flag. The 90-second delay is not modelled: the timer may fire at any point while it is armed.
- The race between a timer callback that has already started and `Stop` in `cancelDisconnectTimerLocked` is not modelled: the timer fires only while armed.
- The unlocked read of `p.loop` at player.go:150 is not modelled.
- `Resolver.Resolve` is left out: it runs yt-dlp and decodes JSON. The conversion of the JSON duration from float seconds is also left out; `Item.duration` is already the `time.Duration`.
- Resolve.LooksLikeURL: `url.Parse` and its scheme and host checks are an uninterpreted parameter `parses`. Only the "://" pre-check is modelled.
- Tracks.HumanDurationRoundTrip: whole seconds are the nanosecond count divided by 10^9, truncated. `Duration.Seconds()` goes through float64. From about 2^24 seconds (some 194 days) up, a fraction just below one second can round up to the next whole second. That rounding is not modelled.
- Text.Lower models Go's `strings.ToLower` only for ASCII letters and the two non-ASCII runes that lower-case to ASCII (U+0130 → 'i', U+212A → 'k'). Other letters are unchanged. That is enough for the "sc ", "youtube" and "soundcloud" comparisons, which involve only ASCII.
- Ffmpeg.Sort is an insertion sort standing in for `sort.Strings`. `Ffmpeg.SortedUnique` shows that any sort yields the same result.
- Playback.FinishStream: player.go:161 compares two func values, `p.cancelPlayback == cancel`, but Go allows a func value to be compared only with nil, so this line does not compile as written. The model takes the evident intent, which is to clear the handle the loop itself installed. Only the loop installs a handle, so the model clears it unconditionally.
- Pcm.RunStream: assumes a working encoder and a send that is never pre-empted. An encode failure and a cancellation during the send are covered per iteration by `Pcm.Step`.
- Pcm.RunStreamOutcome: rests on `Pcm.RunStream`, so it assumes the same working encoder and unpre-empted send.
- Pcm.RunStreamCount: likewise assumes a working encoder and a send that is never pre-empted.
- Pcm.RunStreamFrames: likewise assumes a working encoder and a send that is never pre-empted.
- Wall-clock timestamps in the embeds and in `Resolve` are left out, as is the enqueue timestamp `QueuedAt`.
- `cmd/kvazar/main.go` is left out: environment, signals and the health server are process and network I/O.

## Findings

| source | as written | input that shows it | evidently intended | confidence | as-written member | corrected member |
|---|---|---|---|---|---|---|
| internal/bot/player.go:140-146 | `nextTrack` finds the queue empty and releases the lock before `playLoop` takes it again to clear `playing` and arm the disconnect timer | enqueue A; the loop plays A to the end; `nextTrack` returns nil; enqueue B in the gap (it sees `playing`, starts no loop, reports position 1); the loop parks. B stays queued with no loop, and the timer then disconnects and drops the player | deciding "queue empty" and clearing `playing` happen in one critical section, so a queued track always has a loop to play it | not executed | Playback.StrandedTrack | Playback.NoStrandedTrack |

=== FILE: decimal.dfy ===
/**
 * Decimal rendering as done by Go's `fmt` verbs `%d` and `%02d`, together with the
 * parser that reads such renderings back; the round-trip lemmas tie the two together.
 */
module Decimal {
  import opened Wrappers

  predicate IsDigit(c: char)
  {
    '0' <= c <= '9'
  }

  predicate AllDigits(s: string)
  {
    forall k :: 0 <= k < |s| ==> IsDigit(s[k])
  }

  function DigitChar(d: nat): (c: char)
    requires d < 10
    ensures IsDigit(c) && c as int - '0' as int == d
  {
    ('0' as int + d) as char
  }

  function DigitValue(c: char): (d: nat)
    requires IsDigit(c)
    ensures d < 10 && DigitChar(d) == c
  {
    c as int - '0' as int
  }

  /** Go's `%d` of a non-negative integer: digits only, no leading zero. */
  function Digits(n: nat): (r: string)
    ensures |r| > 0 && AllDigits(r)
    ensures n >= 10 ==> r[0] != '0'
    decreases n
  {
    if n < 10 then [DigitChar(n)] else Digits(n / 10) + [DigitChar(n % 10)]
  }

  /** Go's `%d`: a minus sign in front of the magnitude of a negative number. */
  function FormatInt(n: int): string
  {
    if n < 0 then "-" + Digits(-n) else Digits(n)
  }

  /** Go's `%02d`: padded with zeros to width two; the sign counts toward the width. */
  function Pad2(n: int): string
  {
    if 0 <= n < 10 then "0" + Digits(n) else FormatInt(n)
  }

  /** The number a string of decimal digits denotes; leading zeros are allowed. */
  function ValueOf(s: string): nat
    requires AllDigits(s)
    decreases |s|
  {
    if |s| == 0 then 0 else ValueOf(s[..|s| - 1]) * 10 + DigitValue(s[|s| - 1])
  }

  /** Reads a non-empty string of decimal digits; anything else is rejected. */
  function ParseNat(s: string): (r: Option<nat>)
    ensures r.Some? <==> |s| > 0 && AllDigits(s)
  {
    if |s| > 0 && AllDigits(s) then Some(ValueOf(s)) else None
  }

  /** Reading back the `%d` rendering of a natural number yields that number. */
  lemma {:induction false} ParseDigits(n: nat)
    ensures ParseNat(Digits(n)) == Some(n)
    decreases n
  {
    var s := Digits(n);
    if n >= 10 {
      ParseDigits(n / 10);
      assert s[..|s| - 1] == Digits(n / 10);
    } else {
      assert s[..|s| - 1] == "";
      assert ValueOf(s) == ValueOf("") * 10 + DigitValue(s[0]);
    }
  }

  /** Reading back the `%02d` rendering of a natural number yields that number, in two characters below 100. */
  lemma ParsePad2(n: nat)
    ensures ParseNat(Pad2(n)) == Some(n)
    ensures n < 100 ==> |Pad2(n)| == 2
  {
    if n < 10 {
      var s := Pad2(n);
      assert s[..|s| - 1] == "0";
      assert ValueOf("0") == ValueOf("") * 10 + 0;
    } else {
      ParseDigits(n);
      if n < 100 {
        var s := Digits(n);
        assert s[..|s| - 1] == Digits(n / 10);
      }
    }
  }

  /** Go's `strings.Split(s, ":")`: the pieces between colons, always at least one. */
  function SplitColon(s: string): (parts: seq<string>)
    ensures |parts| > 0
    decreases |s|
  {
    if |s| == 0 then [""]
    else if s[0] == ':' then [""] + SplitColon(s[1..])
    else
      var rest := SplitColon(s[1..]);
      [[s[0]] + rest[0]] + rest[1..]
  }

  /** A piece without colons splits into itself, and a leading piece splits off at its colon. */
  lemma {:induction false} SplitColonPiece(a: string, b: string)
    requires ':' !in a
    ensures SplitColon(a) == [a]
    ensures SplitColon(a + ":" + b) == [a] + SplitColon(b)
    decreases |a|
  {
    if |a| == 0 {
      assert a + ":" + b == [':'] + b;
      assert ([':'] + b)[1..] == b;
    } else {
      SplitColonPiece(a[1..], b);
      assert a == [a[0]] + a[1..];
      assert (a + ":" + b)[1..] == a[1..] + ":" + b;
    }
  }

  lemma DigitsHaveNoColon(n: nat)
    ensures ':' !in Digits(n) && ':' !in Pad2(n)
  {
  }
}

=== FILE: ffmpeg.dfy ===
/**
 * The ffmpeg command line built by `buildFFMpegArgs` in internal/bot/player.go, and
 * the header block `headersToLines` serialises into it. Go's map iteration order is
 * unspecified; it enters here as an explicit parameter `order`, and the result is
 * proved not to depend on it.
 */
module Ffmpeg {
  import opened Text
  import opened Decimal
  import opened Tracks
  import Pcm
  import opened GoMaps

  /** Go's `<` on strings (byte order of UTF-8, which is code-point order). */
  predicate Less(a: string, b: string)
    decreases |a|
  {
    if |b| == 0 then false
    else if |a| == 0 then true
    else if a[0] != b[0] then a[0] < b[0]
    else Less(a[1..], b[1..])
  }

  predicate LessEq(a: string, b: string)
  {
    a == b || Less(a, b)
  }

  lemma {:induction false} LessIrreflexive(a: string)
    ensures !Less(a, a)
    decreases |a|
  {
    if |a| > 0 { LessIrreflexive(a[1..]); }
  }

  lemma {:induction false} LessAsymmetric(a: string, b: string)
    ensures !(Less(a, b) && Less(b, a))
    decreases |a|
  {
    if |a| > 0 && |b| > 0 && a[0] == b[0] { LessAsymmetric(a[1..], b[1..]); }
  }

  lemma {:induction false} LessTransitive(a: string, b: string, c: string)
    requires Less(a, b) && Less(b, c)
    ensures Less(a, c)
    decreases |a|
  {
    if |a| > 0 && a[0] == b[0] && b[0] == c[0] { LessTransitive(a[1..], b[1..], c[1..]); }
  }

  lemma {:induction false} LessTotal(a: string, b: string)
    ensures a == b || Less(a, b) || Less(b, a)
    decreases |a|
  {
    if |a| > 0 && |b| > 0 && a[0] == b[0] {
      LessTotal(a[1..], b[1..]);
      assert a == [a[0]] + a[1..] && b == [b[0]] + b[1..];
    }
  }

  lemma LessEqTransitive(a: string, b: string, c: string)
    requires LessEq(a, b) && LessEq(b, c)
    ensures LessEq(a, c)
  {
    if a != b && b != c { LessTransitive(a, b, c); }
  }

  lemma LessEqAntisymmetric(a: string, b: string)
    requires LessEq(a, b) && LessEq(b, a)
    ensures a == b
  {
    LessAsymmetric(a, b);
  }

  /** Ascending order, as `sort.Strings` leaves it. */
  predicate Sorted(s: seq<string>)
  {
    forall i, j :: 0 <= i < j < |s| ==> LessEq(s[i], s[j])
  }

  /** Puts `x` in front of the first element of `s` above it. */
  function Insert(x: string, s: seq<string>): (r: seq<string>)
    ensures multiset(r) == multiset(s) + multiset{x}
    decreases |s|
  {
    if |s| == 0 || LessEq(x, s[0]) then [x] + s
    else
      assert s == [s[0]] + s[1..];
      [s[0]] + Insert(x, s[1..])
  }

  /** `y` is at or below every element of `s`. */
  predicate LowerBound(y: string, s: seq<string>)
  {
    forall j :: 0 <= j < |s| ==> LessEq(y, s[j])
  }

  /** Inserting into a sorted sequence keeps it sorted. */
  lemma {:induction false} InsertSorted(x: string, s: seq<string>)
    requires Sorted(s)
    ensures Sorted(Insert(x, s))
    decreases |s|
  {
    if |s| == 0 {
    } else if LessEq(x, s[0]) {
      forall j | 0 <= j < |s| ensures LessEq(x, s[j]) {
        if j > 0 { LessEqTransitive(x, s[0], s[j]); }
      }
      ConsSorted(x, s);
    } else {
      LessTotal(x, s[0]);
      var t := Insert(x, s[1..]);
      SortedTail(s);
      InsertSorted(x, s[1..]);
      assert LowerBound(s[0], s[1..]) by {
        forall j | 0 <= j < |s[1..]| ensures LessEq(s[0], s[1..][j]) { assert s[1..][j] == s[j + 1]; }
      }
      BoundByMultiset(s[0], s[1..], x, t);
      ConsSorted(s[0], t);
    }
  }

  /** A lower bound of `s` and of `x` bounds any rearrangement of `s` with `x` added. */
  lemma BoundByMultiset(y: string, s: seq<string>, x: string, t: seq<string>)
    requires LowerBound(y, s) && LessEq(y, x) && multiset(t) == multiset(s) + multiset{x}
    ensures LowerBound(y, t)
  {
    forall j | 0 <= j < |t| ensures LessEq(y, t[j]) {
      assert t[j] in multiset(t);
      if t[j] != x {
        assert t[j] in multiset(s);
        var k :| 0 <= k < |s| && s[k] == t[j];
      }
    }
  }

  /** A lower bound put in front of a sorted sequence keeps it sorted. */
  lemma ConsSorted(y: string, t: seq<string>)
    requires LowerBound(y, t) && Sorted(t)
    ensures Sorted([y] + t)
  {
    var r := [y] + t;
    forall a, b | 0 <= a < b < |r| ensures LessEq(r[a], r[b]) {
      assert r[b] == t[b - 1];
      if a > 0 { assert r[a] == t[a - 1]; }
    }
  }

  /** Insertion sort, standing in for `sort.Strings`: a sorted permutation of its input. */
  function Sort(s: seq<string>): (r: seq<string>)
    ensures multiset(r) == multiset(s)
    decreases |s|
  {
    if |s| == 0 then []
    else
      assert s == [s[0]] + s[1..];
      Insert(s[0], Sort(s[1..]))
  }

  lemma {:induction false} SortSorted(s: seq<string>)
    ensures Sorted(Sort(s))
    decreases |s|
  {
    if |s| > 0 {
      SortSorted(s[1..]);
      InsertSorted(s[0], Sort(s[1..]));
    }
  }

  /** The head of a sorted sequence is at or below everything in it. */
  lemma SortedHeadIsLeast(a: seq<string>, x: string)
    requires Sorted(a) && x in multiset(a)
    ensures LessEq(a[0], x)
  {
    var j :| 0 <= j < |a| && a[j] == x;
    if j > 0 { assert LessEq(a[0], a[j]); }
  }

  lemma SortedTail(a: seq<string>)
    requires Sorted(a) && |a| > 0
    ensures Sorted(a[1..])
  {
    forall i, j | 0 <= i < j < |a| - 1 ensures LessEq(a[1..][i], a[1..][j]) {
      assert a[1..][i] == a[i + 1] && a[1..][j] == a[j + 1];
    }
  }

  /** Two sorted sequences holding the same strings are the same sequence. */
  lemma {:induction false} SortedUnique(a: seq<string>, b: seq<string>)
    requires Sorted(a) && Sorted(b) && multiset(a) == multiset(b)
    ensures a == b
    decreases |a|
  {
    assert |a| == |multiset(a)| == |multiset(b)| == |b|;
    if |a| > 0 {
      assert a[0] in multiset(a) && b[0] in multiset(b);
      SortedHeadIsLeast(a, b[0]);
      SortedHeadIsLeast(b, a[0]);
      LessEqAntisymmetric(a[0], b[0]);
      TailMultiset(a);
      TailMultiset(b);
      SortedTail(a);
      SortedTail(b);
      SortedUnique(a[1..], b[1..]);
    }
  }

  /** One header line as `headersToLines` formats it: `"%s: %s"`. */
  function Line(key: string, value: string): string
  {
    key + ": " + value
  }

  /** The unsorted header lines, in iteration order. */
  function Lines(h: map<string, string>, order: seq<string>): (r: seq<string>)
    requires forall i :: 0 <= i < |order| ==> order[i] in h
    ensures |r| == |order|
    ensures forall i :: 0 <= i < |order| ==> r[i] == Line(order[i], h[order[i]])
    decreases |order|
  {
    if |order| == 0 then [] else [Line(order[0], h[order[0]])] + Lines(h, order[1..])
  }

  /** Re-ordering the keys only re-orders the lines. */
  lemma {:induction false} LinesPermutation(h: map<string, string>, o1: seq<string>, o2: seq<string>)
    requires forall i :: 0 <= i < |o1| ==> o1[i] in h
    requires forall i :: 0 <= i < |o2| ==> o2[i] in h
    requires multiset(o1) == multiset(o2)
    ensures multiset(Lines(h, o1)) == multiset(Lines(h, o2))
    decreases |o1|
  {
    assert |o1| == |multiset(o1)| == |multiset(o2)| == |o2|;
    if |o1| > 0 {
      assert o1[0] in multiset(o2);
      var k :| 0 <= k < |o2| && o2[k] == o1[0];
      var rest := o2[..k] + o2[k + 1..];
      assert multiset(o1[1..]) == multiset(rest) by {
        TailMultiset(o1);
        RemoveOne(o2, k);
      }
      assert forall i :: 0 <= i < |rest| ==> rest[i] in h by {
        assert forall x :: x in multiset(rest) ==> x in multiset(o2);
      }
      LinesPermutation(h, o1[1..], rest);
      var x := Line(o1[0], h[o1[0]]);
      assert Lines(h, o1) == [x] + Lines(h, o1[1..]);
      assert multiset(Lines(h, o1)) == multiset{x} + multiset(Lines(h, o1[1..]));
      LinesRemove(h, o2, k);
      assert multiset(Lines(h, o2)) == multiset{x} + multiset(Lines(h, rest));
    }
  }

  /** Cutting one element out of a sequence takes one copy of it out of its multiset. */
  lemma RemoveOne(s: seq<string>, k: nat)
    requires k < |s|
    ensures multiset(s[..k] + s[k + 1..]) == multiset(s) - multiset{s[k]}
  {
    assert s == s[..k] + [s[k]] + s[k + 1..];
  }

  lemma TailMultiset(s: seq<string>)
    requires |s| > 0
    ensures multiset(s[1..]) == multiset(s) - multiset{s[0]}
  {
    assert s == [s[0]] + s[1..];
  }

  /** Taking one key out of an order takes its line out of the lines. */
  lemma LinesRemove(h: map<string, string>, o: seq<string>, k: nat)
    requires forall i :: 0 <= i < |o| ==> o[i] in h
    requires k < |o|
    ensures multiset(Lines(h, o)) == multiset{Line(o[k], h[o[k]])} + multiset(Lines(h, o[..k] + o[k + 1..]))
  {
    assert o == o[..k] + ([o[k]] + o[k + 1..]);
    LinesAppend(h, o[..k], [o[k]] + o[k + 1..]);
    LinesAppend(h, [o[k]], o[k + 1..]);
    LinesAppend(h, o[..k], o[k + 1..]);
  }

  lemma {:induction false} LinesAppend(h: map<string, string>, a: seq<string>, b: seq<string>)
    requires forall i :: 0 <= i < |a| ==> a[i] in h
    requires forall i :: 0 <= i < |b| ==> b[i] in h
    ensures Lines(h, a + b) == Lines(h, a) + Lines(h, b)
    decreases |a|
  {
    if |a| == 0 {
      assert a + b == b;
    } else {
      assert (a + b)[1..] == a[1..] + b;
      LinesAppend(h, a[1..], b);
    }
  }

  /** The line terminator of ffmpeg's `-headers` option. */
  const CRLF: string := "\r\n"

  /**
   * `headersToLines`: "" for no headers, otherwise the `key: value` lines sorted
   * ascending, joined and terminated by CRLF.
   */
  function HeadersToLines(h: map<string, string>, order: seq<string>): (r: string)
    requires IsIterationOrder(h, order)
    ensures r == "" <==> |h| == 0
    ensures r != "" ==> |r| >= 2 && r[|r| - 2..] == CRLF
  {
    if |h| == 0 then "" else Join(Sort(Lines(h, order)), CRLF) + CRLF
  }

  /** The header block does not depend on the order Go happens to iterate the map in. */
  lemma HeadersIndependentOfOrder(h: map<string, string>, o1: seq<string>, o2: seq<string>)
    requires IsIterationOrder(h, o1) && IsIterationOrder(h, o2)
    ensures HeadersToLines(h, o1) == HeadersToLines(h, o2)
  {
    OrdersArePermutations(h, o1, o2);
    LinesPermutation(h, o1, o2);
    SortSorted(Lines(h, o1));
    SortSorted(Lines(h, o2));
    SortedUnique(Sort(Lines(h, o1)), Sort(Lines(h, o2)));
  }

  /** Each line followed by its own CRLF. */
  function Terminated(lines: seq<string>): string
    decreases |lines|
  {
    if |lines| == 0 then "" else lines[0] + CRLF + Terminated(lines[1..])
  }

  lemma {:induction false} JoinTerminated(lines: seq<string>)
    requires |lines| > 0
    ensures Join(lines, CRLF) + CRLF == Terminated(lines)
    decreases |lines|
  {
    if |lines| > 1 {
      JoinTerminated(lines[1..]);
    } else {
      assert Terminated(lines[1..]) == "";
    }
  }

  /**
   * The header block is empty exactly when there are no headers; otherwise it is one
   * `key: value` line per header, in ascending order, each ending in CRLF.
   */
  lemma HeadersToLinesShape(h: map<string, string>, order: seq<string>) returns (lines: seq<string>)
    requires IsIterationOrder(h, order)
    ensures HeadersToLines(h, order) == "" <==> |h| == 0
    ensures |h| > 0 ==> HeadersToLines(h, order) == Terminated(lines)
    ensures Sorted(lines) && |lines| == |h|
    ensures multiset(lines) == multiset(Lines(h, order))
  {
    lines := Sort(Lines(h, order));
    assert |lines| == |multiset(lines)| == |Lines(h, order)| == |order|;
    OrderLength(h, order);
    SortSorted(Lines(h, order));
    if |h| > 0 {
      JoinTerminated(lines);
    }
  }

  /** ffmpeg's network reconnection flags, always first. */
  const ReconnectFlags: seq<string> := ["-reconnect", "1", "-reconnect_streamed", "1", "-reconnect_delay_max", "5"]

  /** Input and output flags, always last: raw s16le PCM, stereo, 48 kHz, to stdout. */
  function OutputFlags(streamURL: string): seq<string>
  {
    ["-i", streamURL, "-vn", "-f", "s16le", "-ac", FormatInt(Pcm.ChannelCount), "-ar", FormatInt(Pcm.SampleRate), "pipe:1"]
  }

  /** `buildFFMpegArgs`. */
  function BuildFFMpegArgs(t: Track, order: seq<string>): (args: seq<string>)
    requires IsIterationOrder(t.httpHeaders, order)
    ensures |args| >= 16
    ensures args[..6] == ReconnectFlags
    ensures args[|args| - 10..] == OutputFlags(t.streamURL)
    ensures HeadersToLines(t.httpHeaders, order) == "" ==> |args| == 16
    ensures HeadersToLines(t.httpHeaders, order) != "" ==>
      |args| == 18 && args[6] == "-headers" && args[7] == HeadersToLines(t.httpHeaders, order)
  {
    var headerLines := HeadersToLines(t.httpHeaders, order);
    if headerLines != "" then ReconnectFlags + ["-headers", headerLines] + OutputFlags(t.streamURL)
    else ReconnectFlags + OutputFlags(t.streamURL)
  }

  /** The channel and rate flags read "2" and "48000", and `-headers` appears exactly when there are headers. */
  lemma FFMpegArgsFacts(t: Track, order: seq<string>)
    requires IsIterationOrder(t.httpHeaders, order)
    ensures var args := BuildFFMpegArgs(t, order);
      && args[|args| - 10..] == ["-i", t.streamURL, "-vn", "-f", "s16le", "-ac", "2", "-ar", "48000", "pipe:1"]
      && ("-headers" in args[..|args| - 10] <==> |t.httpHeaders| > 0)
  {
    OutputFlagsSpelled(t.streamURL);
    var lines := HeadersToLinesShape(t.httpHeaders, order);
    var args := BuildFFMpegArgs(t, order);
    assert "-headers" !in ReconnectFlags;
    if |t.httpHeaders| > 0 {
      assert args[..|args| - 10] == ReconnectFlags + ["-headers", HeadersToLines(t.httpHeaders, order)];
    } else {
      assert args[..|args| - 10] == ReconnectFlags;
    }
  }

  /** The output flags with the channel count and sample rate written out. */
  lemma OutputFlagsSpelled(url: string)
    ensures OutputFlags(url) == ["-i", url, "-vn", "-f", "s16le", "-ac", "2", "-ar", "48000", "pipe:1"]
  {
    assert FormatInt(2) == "2";
    RateSpelled();
  }

  lemma RateSpelled()
    ensures FormatInt(48000) == "48000"
  {
    assert Digits(48) == Digits(4) + "8";
    assert Digits(480) == Digits(48) + "0";
    assert Digits(4800) == Digits(480) + "0";
    assert Digits(48000) == Digits(4800) + "0";
  }


}

=== FILE: gomaps.dfy ===
/**
 * Go's map iteration: the runtime visits the keys in an unspecified order, which the
 * model takes as an explicit parameter, a sequence listing every key exactly once.
 */
module GoMaps {
  /** `order` is an iteration order of the map: each key exactly once. */
  predicate IsIterationOrder<V>(h: map<string, V>, order: seq<string>)
  {
    && (forall i :: 0 <= i < |order| ==> order[i] in h)
    && (forall k :: k in h ==> k in order)
    && (forall i, j :: 0 <= i < j < |order| ==> order[i] != order[j])
  }

  /** In a sequence without repeats every element occurs once. */
  lemma {:induction false} DistinctCount<K>(s: seq<K>, x: K)
    requires forall i, j :: 0 <= i < j < |s| ==> s[i] != s[j]
    ensures multiset(s)[x] == if x in s then 1 else 0
    decreases |s|
  {
    if |s| > 0 {
      assert s == [s[0]] + s[1..];
      DistinctCount(s[1..], x);
      if x == s[0] { assert x !in s[1..]; }
    }
  }

  /** Two iteration orders of one map are permutations of each other. */
  lemma OrdersArePermutations<V>(h: map<string, V>, o1: seq<string>, o2: seq<string>)
    requires IsIterationOrder(h, o1) && IsIterationOrder(h, o2)
    ensures multiset(o1) == multiset(o2)
  {
    forall x ensures multiset(o1)[x] == multiset(o2)[x] {
      DistinctCount(o1, x);
      DistinctCount(o2, x);
    }
  }

  /** An iteration order lists as many keys as the map has. */
  lemma {:induction false} OrderLength<V>(h: map<string, V>, order: seq<string>)
    requires IsIterationOrder(h, order)
    ensures |order| == |h|
    decreases |order|
  {
    if |order| > 0 {
      var k := order[0];
      var h' := h - {k};
      assert h'.Keys == h.Keys - {k};
      assert |h'| == |h| - 1;
      forall x | x in h' ensures x in order[1..] {
        var i :| 0 <= i < |order| && order[i] == x;
        assert i != 0;
      }
      OrderLength(h', order[1..]);
    }
  }
}

=== FILE: messages.dfy ===
/**
 * The pure helpers of internal/bot/bot.go that decide what users see: the default
 * for a blank configured path, the "queued" and "now playing" embeds, and the checks
 * `/play` makes before it does anything. Timestamps and the Discord calls are left out.
 */
module Messages {
  import opened Wrappers
  import opened Text
  import opened Decimal
  import opened Tracks
  import Resolve
  import Playback

  /** `pickOrDefault`: the fallback for a value that is blank after trimming, else the value untouched. */
  function PickOrDefault(value: string, fallback: string): (r: string)
    ensures IsBlank(value) ==> r == fallback
    ensures !IsBlank(value) ==> r == value
  {
    if TrimSpace(value) == "" then fallback else value
  }

  /** The ffmpeg executable the bot runs when none is configured. */
  const DefaultFFMpeg: string := "ffmpeg"

  /** The configured ffmpeg path, or "ffmpeg"; never blank. */
  lemma FFMpegPathNeverBlank(configured: string)
    ensures !IsBlank(PickOrDefault(configured, DefaultFFMpeg))
  {
    if IsBlank(configured) {
      NotBlankIfLastNotSpace(DefaultFFMpeg);
    }
  }

  /** The resolver's executable default is the same rule as `pickOrDefault`. */
  lemma NewResolverPicksDefault(path: string)
    ensures Resolve.NewResolver(path).executable == PickOrDefault(path, Resolve.DefaultExecutable)
  {
  }

  datatype Field = Field(name: string, value: string, inline: bool)

  /** The parts of a Discord embed the bot fills in, without the timestamp. */
  datatype Embed = Embed(title: string, url: string, color: int, thumbnail: string, fields: seq<Field>)

  const QueuedColor: int := 0x5865F2
  const NowPlayingColor: int := 0x1ABC9C

  const NextPrefix: string := "Следеће • "
  const QueuedPrefix: string := "У реду • "
  /** The status word of the "now playing" title and what separates it from the track title. */
  const LoopingStatus: string := "Понавља"
  const NowStatus: string := "Сада"
  const StatusSeparator: string := " • "
  const LoopingPrefix: string := LoopingStatus + StatusSeparator
  const NowPrefix: string := NowStatus + StatusSeparator

  const DurationName: string := "Трајање"
  const SourceName: string := "Извор"
  const RequesterName: string := "Захтевао"
  const PositionName: string := "Позиција"

  /** The duration and source fields both embeds open with. */
  function TrackFields(t: Track): seq<Field>
  {
    [Field(DurationName, HumanDuration(t), true), Field(SourceName, t.source, true)]
  }

  /**
   * `buildQueuedEmbed`: "next" for position 1, "queued" otherwise; duration and source,
   * then the requester when there is one, and the position last, as `#<n>`.
   */
  function QueuedEmbed(t: Track, position: int): (e: Embed)
    ensures HasPrefix(e.title, NextPrefix) <==> position == 1
    ensures e.title == (if position == 1 then NextPrefix else QueuedPrefix) + t.title
    ensures e.url == t.webURL && e.thumbnail == t.thumbnail && e.color == QueuedColor
    ensures |e.fields| == if t.requestedBy == "" then 3 else 4
    ensures e.fields[..2] == TrackFields(t)
    ensures t.requestedBy != "" ==> e.fields[2] == Field(RequesterName, t.requestedBy, true)
    ensures e.fields[|e.fields| - 1] == Field(PositionName, "#" + FormatInt(position), true)
    ensures forall i :: 0 <= i < |e.fields| ==> e.fields[i].inline
  {
    var title := if position == 1 then NextPrefix + t.title else QueuedPrefix + t.title;
    var requester := if t.requestedBy != "" then [Field(RequesterName, t.requestedBy, true)] else [];
    var fields := TrackFields(t) + requester + [Field(PositionName, "#" + FormatInt(position), true)];
    assert QueuedPrefix[0] != NextPrefix[0];
    Embed(title, t.webURL, QueuedColor, t.thumbnail, fields)
  }

  /** The position field reads back as the position `Enqueue` reported. */
  lemma PositionReadsBack(t: Track, p: Playback.Player, u: Track)
    ensures var r := Playback.Enqueue(p, u);
      var e := QueuedEmbed(t, r.position);
      var v := e.fields[|e.fields| - 1].value;
      |v| > 1 && v[0] == '#' && ParseNat(v[1..]) == Some(r.position)
  {
    var r := Playback.Enqueue(p, u);
    ParseDigits(r.position);
    assert ("#" + FormatInt(r.position))[1..] == Digits(r.position);
  }

  /**
   * The queued embed says "next" exactly when the queue was empty before the track went
   * in, whether or not another track is playing.
   */
  lemma NextExactlyWhenQueueWasEmpty(t: Track, p: Playback.Player)
    ensures HasPrefix(QueuedEmbed(t, Playback.Enqueue(p, t).position).title, NextPrefix) <==> p.queue == []
  {
  }

  /** `buildNowPlayingEmbed`: "looping" when the loop flag is on, "now" otherwise; duration and source only. */
  function NowPlayingEmbed(t: Track, loop: bool): (e: Embed)
    ensures HasPrefix(e.title, LoopingPrefix) <==> loop
    ensures e.title == (if loop then LoopingPrefix else NowPrefix) + t.title
    ensures e.url == t.webURL && e.thumbnail == t.thumbnail && e.color == NowPlayingColor
    ensures e.fields == TrackFields(t)
  {
    var status := if loop then LoopingStatus else NowStatus;
    assert NowPrefix[0] != LoopingPrefix[0];
    Embed(status + StatusSeparator + t.title, t.webURL, NowPlayingColor, t.thumbnail, TrackFields(t))
  }

  const MissingQueryMessage: string := "Молим те унеси упит или URL адресу."
  const BlankQueryMessage: string := "Молим те унеси упит."
  const GuildOnlyMessage: string := "Ова команда се може користити само на серверу."

  /** A `/play` request that passed the first checks. */
  datatype PlayRequest = PlayRequest(query: string, guild: string)

  /**
   * The checks at the start of `handlePlay`, in order: an option must be given, its
   * trimmed value must not be empty, and the command must come from a server. Nothing
   * else happens before they pass.
   */
  function ValidatePlay(options: seq<string>, guild: string): (r: Result<PlayRequest, string>)
    ensures |options| == 0 ==> r == Err(MissingQueryMessage)
    ensures |options| > 0 && IsBlank(options[0]) ==> r == Err(BlankQueryMessage)
    ensures |options| > 0 && !IsBlank(options[0]) && guild == "" ==> r == Err(GuildOnlyMessage)
    ensures r.Ok? <==> |options| > 0 && !IsBlank(options[0]) && guild != ""
    ensures r.Ok? ==> r.value.query == TrimSpace(options[0]) && r.value.guild == guild
  {
    if |options| == 0 then Err(MissingQueryMessage)
    else
      var query := TrimSpace(options[0]);
      if query == "" then Err(BlankQueryMessage)
      else if guild == "" then Err(GuildOnlyMessage)
      else Ok(PlayRequest(query, guild))
  }

  /**
   * An accepted query is already trimmed, is not blank, and gives the resolver a
   * non-empty argument; padding the option with white space changes nothing.
   */
  lemma AcceptedQueryIsClean(options: seq<string>, guild: string, pre: string, post: string, parses: string -> bool)
    requires AllSpace(pre) && AllSpace(post) && |options| > 0
    ensures var r := ValidatePlay(options, guild);
      && ValidatePlay([pre + options[0] + post] + options[1..], guild) == r
      && (r.Ok? ==> TrimSpace(r.value.query) == r.value.query && !IsBlank(r.value.query)
                    && Resolve.PrepareQuery(r.value.query, parses) != "")
  {
    TrimSpacePadding(pre, options[0], post);
    TrimSpaceIdempotent(options[0]);
  }
}

=== FILE: pcm.dfy ===
/**
 * The frame pipeline of `streamTrack` in internal/bot/player.go, reduced to what it
 * computes: the fixed frame geometry, the little-endian s16 decode of one raw frame,
 * the classification of one loop iteration, and the outcome of a whole stream.
 * ffmpeg, the Opus encoder and the voice channel are outside the model; their
 * behaviour enters as parameters (the bytes ffmpeg writes, whether encoding failed,
 * which way a `select` went).
 */
module Pcm {
  import opened Wrappers

  /** Samples per channel in one 20 ms frame at 48 kHz. */
  const FrameSize: int := 960
  const ChannelCount: int := 2
  const SampleRate: int := 48000

  /** Interleaved samples in one frame (`len(pcmBuf)`). */
  const FrameSamples: int := FrameSize * ChannelCount
  /** Raw bytes in one frame (`len(byteBuf)`): two bytes per sample. */
  const FrameBytes: int := FrameSamples * 2

  type byte = x: int | 0 <= x < 256

  /** Signed 16-bit samples. */
  predicate IsInt16(x: int)
  {
    -32768 <= x < 32768
  }

  /** Go's `int16(u)` conversion of a `uint16`: two's complement reinterpretation. */
  function ToInt16(u: int): (x: int)
    requires 0 <= u < 65536
    ensures IsInt16(x)
    ensures x == u || x == u - 65536
  {
    if u < 32768 then u else u - 65536
  }

  /** `int16(binary.LittleEndian.Uint16([lo, hi]))`. */
  function Sample(lo: byte, hi: byte): int
  {
    ToInt16(lo as int + 256 * (hi as int))
  }

  /** The decoded value of every sample index i: bytes 2i (low) and 2i+1 (high). */
  function DecodeSamples(b: seq<byte>): (r: seq<int>)
    requires |b| % 2 == 0
    ensures 2 * |r| == |b|
    ensures forall i :: 0 <= i < |r| ==> IsInt16(r[i])
  {
    seq(|b| / 2, i requires 0 <= i < |b| / 2 => Sample(b[2 * i], b[2 * i + 1]))
  }

  /** Low byte of a sample's two's-complement encoding. */
  function LowByte(x: int): byte
    requires IsInt16(x)
  {
    (if x < 0 then x + 65536 else x) % 256
  }

  /** High byte of a sample's two's-complement encoding. */
  function HighByte(x: int): byte
    requires IsInt16(x)
  {
    (if x < 0 then x + 65536 else x) / 256
  }

  /** What ffmpeg's `-f s16le` writes for a sequence of samples: low byte first. */
  function EncodeSamples(pcm: seq<int>): (b: seq<byte>)
    requires forall i :: 0 <= i < |pcm| ==> IsInt16(pcm[i])
    ensures |b| == 2 * |pcm|
    ensures forall i :: 0 <= i < |pcm| ==> b[2 * i] == LowByte(pcm[i]) && b[2 * i + 1] == HighByte(pcm[i])
  {
    seq(2 * |pcm|, k requires 0 <= k < 2 * |pcm| => if k % 2 == 0 then LowByte(pcm[k / 2]) else HighByte(pcm[k / 2]))
  }

  /** A sample's two bytes decode back to the sample. */
  lemma SampleOfBytes(x: int)
    requires IsInt16(x)
    ensures Sample(LowByte(x), HighByte(x)) == x
  {
    var u := if x < 0 then x + 65536 else x;
    assert u == (u / 256) * 256 + u % 256;
  }

  /** Two bytes are recovered from the sample they decode to. */
  lemma BytesOfSample(lo: byte, hi: byte)
    ensures IsInt16(Sample(lo, hi))
    ensures LowByte(Sample(lo, hi)) == lo && HighByte(Sample(lo, hi)) == hi
  {
    var u := lo as int + 256 * (hi as int);
    assert u / 256 == hi && u % 256 == lo;
  }

  /** Decoding undoes ffmpeg's encoding: every sample comes back. */
  lemma DecodeEncode(pcm: seq<int>)
    requires forall i :: 0 <= i < |pcm| ==> IsInt16(pcm[i])
    ensures DecodeSamples(EncodeSamples(pcm)) == pcm
  {
    var b := EncodeSamples(pcm);
    assert |b| / 2 == |pcm|;
    forall i | 0 <= i < |pcm| ensures DecodeSamples(b)[i] == pcm[i] {
      DecodeEncodeAt(pcm, i);
    }
  }

  lemma DecodeEncodeAt(pcm: seq<int>, i: int)
    requires forall i :: 0 <= i < |pcm| ==> IsInt16(pcm[i])
    requires 0 <= i < |pcm|
    ensures |DecodeSamples(EncodeSamples(pcm))| == |pcm|
    ensures DecodeSamples(EncodeSamples(pcm))[i] == pcm[i]
  {
    var b := EncodeSamples(pcm);
    assert |b| / 2 == |pcm|;
    assert DecodeSamples(b)[i] == Sample(b[2 * i], b[2 * i + 1]);
    SampleOfBytes(pcm[i]);
  }

  /** Encoding undoes decoding: the decode loses no byte. */
  lemma EncodeDecode(b: seq<byte>)
    requires |b| % 2 == 0
    ensures forall i :: 0 <= i < |DecodeSamples(b)| ==> IsInt16(DecodeSamples(b)[i])
    ensures EncodeSamples(DecodeSamples(b)) == b
  {
    var d := DecodeSamples(b);
    forall i | 0 <= i < |d| ensures IsInt16(d[i]) {
      BytesOfSample(b[2 * i], b[2 * i + 1]);
    }
    var e := EncodeSamples(d);
    forall k | 0 <= k < |b| ensures e[k] == b[k] {
      EncodeDecodeAt(b, k);
    }
  }

  lemma EncodeDecodeAt(b: seq<byte>, k: int)
    requires |b| % 2 == 0 && 0 <= k < |b|
    requires forall i :: 0 <= i < |DecodeSamples(b)| ==> IsInt16(DecodeSamples(b)[i])
    ensures EncodeSamples(DecodeSamples(b))[k] == b[k]
  {
    var d := DecodeSamples(b);
    var i := k / 2;
    var lo, hi := 2 * i, 2 * i + 1;
    assert k == lo || k == hi;
    assert 0 <= i < |d|;
    assert d[i] == Sample(b[lo], b[hi]);
    BytesOfSample(b[lo], b[hi]);
  }

  /** The decode loop of `streamTrack`, over the filled 3840-byte read buffer. */
  method DecodeFrame(b: seq<byte>) returns (pcm: seq<int>)
    requires |b| == FrameBytes
    ensures |pcm| == FrameSamples
    ensures pcm == DecodeSamples(b)
    ensures forall i :: 0 <= i < |pcm| ==> IsInt16(pcm[i])
  {
    pcm := [];
    var i := 0;
    while i < FrameSamples
      invariant 0 <= i <= FrameSamples
      invariant |pcm| == i
      invariant forall j :: 0 <= j < i ==> pcm[j] == Sample(b[2 * j], b[2 * j + 1])
    {
      pcm := pcm + [Sample(b[2 * i], b[2 * i + 1])];
      i := i + 1;
    }
  }

  /** How one `streamTrack` invocation ends. `playLoop` treats all three alike. */
  datatype Outcome = Canceled | Completed | Failed(reason: string)

  /** What `io.ReadFull` reports for one frame. */
  datatype ReadResult = Full(frame: seq<byte>) | Eof | UnexpectedEof | ReadError(reason: string)

  /**
   * `io.ReadFull(reader, byteBuf)` on a pipe holding `data` and then ending cleanly
   * (`err` None) or with an error: a full frame if there is one, otherwise EOF when
   * nothing was read, `ErrUnexpectedEOF` after a partial read, or the pipe's error.
   */
  function ReadFrame(data: seq<byte>, err: Option<string>): (r: ReadResult)
    ensures r.Full? <==> |data| >= FrameBytes
    ensures r.Full? ==> r.frame == data[..FrameBytes]
  {
    if |data| >= FrameBytes then Full(data[..FrameBytes])
    else match err
      case None => if |data| == 0 then Eof else UnexpectedEof
      case Some(e) => ReadError(e)
  }

  /** One iteration either delivers a decoded frame or ends the stream. */
  datatype StepResult = Sent(pcm: seq<int>) | Done(outcome: Outcome)

  /**
   * One iteration of the `streamTrack` loop: cancellation is checked first; then the
   * read, where EOF and a short read are normal completion and any other error is a
   * failure; then encoding; then the `select` between the send and `ctx.Done()`
   * (`sendCancelled` says which case the `select` took).
   */
  function Step(cancelled: bool, read: ReadResult, encodeOk: bool, sendCancelled: bool): (r: StepResult)
    requires read.Full? ==> |read.frame| == FrameBytes
    ensures cancelled ==> r == Done(Canceled)
    ensures !cancelled && (read.Eof? || read.UnexpectedEof?) ==> r == Done(Completed)
    ensures !cancelled && read.ReadError? ==> r.Done? && r.outcome.Failed?
    ensures !cancelled && read.Full? && !encodeOk ==> r.Done? && r.outcome.Failed?
    ensures !cancelled && read.Full? && encodeOk && sendCancelled ==> r == Done(Canceled)
    ensures r.Sent? <==> !cancelled && read.Full? && encodeOk && !sendCancelled
    ensures r.Sent? ==> r.pcm == DecodeSamples(read.frame) && |r.pcm| == FrameSamples
  {
    if cancelled then Done(Canceled)
    else match read
      case Eof => Done(Completed)
      case UnexpectedEof => Done(Completed)
      case ReadError(e) => Done(Failed("pcm read: " + e))
      case Full(b) =>
        if !encodeOk then Done(Failed("opus encode"))
        else if sendCancelled then Done(Canceled)
        else Sent(DecodeSamples(b))
  }

  /** The error `streamTrack` returns when no voice connection is held. */
  const NoVoiceError: string := "voice connection not established"

  /**
   * A whole `streamTrack` run with a working encoder: the frames delivered and how it
   * ended. `cancelAt` is the iteration before whose cancellation check the context was
   * cancelled, if any.
   */
  function RunStream(hasVoice: bool, data: seq<byte>, err: Option<string>, cancelAt: Option<nat>): (r: (seq<seq<int>>, Outcome))
    ensures r.0 != [] ==> hasVoice && |data| >= FrameBytes
    ensures !hasVoice ==> r.0 == [] && r.1.Failed?
    decreases |data|
  {
    if !hasVoice then ([], Failed(NoVoiceError))
    else
      var read := ReadFrame(data, err);
      match Step(cancelAt == Some(0), read, true, false)
      case Done(o) => ([], o)
      case Sent(pcm) =>
        var next := if cancelAt.Some? then Some(cancelAt.value - 1) else None;
        var (frames, o) := RunStream(true, data[FrameBytes..], err, next);
        ([pcm] + frames, o)
  }

  /** Whether a cancellation is scheduled at or before iteration n. */
  predicate CancelledBy(cancelAt: Option<nat>, n: nat)
  {
    cancelAt.Some? && cancelAt.value <= n
  }

  /**
   * A stream delivers one decoded frame per full 3840 bytes, dropping a trailing partial
   * frame, until it is cancelled; uncancelled, it completes on a clean end and fails on
   * a pipe error.
   */
  lemma RunStreamOutcome(data: seq<byte>, err: Option<string>, cancelAt: Option<nat>)
    ensures var (frames, o) := RunStream(true, data, err, cancelAt);
      var n := |data| / FrameBytes;
      && (CancelledBy(cancelAt, n) ==> |frames| == cancelAt.value && o == Canceled)
      && (!CancelledBy(cancelAt, n) ==> |frames| == n && (if err.None? then o == Completed else o.Failed?))
      && (forall i :: 0 <= i < |frames| ==> frames[i] == DecodeSamples(data[i * FrameBytes..(i + 1) * FrameBytes]))
  {
    RunStreamCount(data, err, cancelAt);
    RunStreamFrames(data, err, cancelAt);
  }

  /** The countdown to a cancellation after the first frame. */
  function Later(cancelAt: Option<nat>): Option<nat>
    requires cancelAt != Some(0)
  {
    if cancelAt.Some? then Some(cancelAt.value - 1) else None
  }

  /** An uncancelled iteration over a full frame sends it and carries on with the rest. */
  lemma RunStreamUnfold(data: seq<byte>, err: Option<string>, cancelAt: Option<nat>)
    requires cancelAt != Some(0) && |data| >= FrameBytes
    ensures var rest := RunStream(true, data[FrameBytes..], err, Later(cancelAt));
      RunStream(true, data, err, cancelAt) == ([DecodeSamples(data[..FrameBytes])] + rest.0, rest.1)
  {
  }

  /** How many frames a stream sends and how it ends. */
  lemma {:induction false} RunStreamCount(data: seq<byte>, err: Option<string>, cancelAt: Option<nat>)
    ensures var (frames, o) := RunStream(true, data, err, cancelAt);
      var n := |data| / FrameBytes;
      && (CancelledBy(cancelAt, n) ==> |frames| == cancelAt.value && o == Canceled)
      && (!CancelledBy(cancelAt, n) ==> |frames| == n && (if err.None? then o == Completed else o.Failed?))
    decreases |data|
  {
    if cancelAt == Some(0) {
    } else if |data| < FrameBytes {
      assert |data| / FrameBytes == 0;
    } else {
      RunStreamUnfold(data, err, cancelAt);
      RunStreamCount(data[FrameBytes..], err, Later(cancelAt));
      assert |data[FrameBytes..]| / FrameBytes == |data| / FrameBytes - 1;
    }
  }

  /** Frame i of a stream is the decode of bytes 3840i to 3840(i + 1). */
  lemma {:induction false} RunStreamFrames(data: seq<byte>, err: Option<string>, cancelAt: Option<nat>)
    ensures var frames := RunStream(true, data, err, cancelAt).0;
      && |frames| * FrameBytes <= |data|
      && forall i :: 0 <= i < |frames| ==> frames[i] == DecodeSamples(data[i * FrameBytes..(i + 1) * FrameBytes])
    decreases |data|
  {
    if cancelAt != Some(0) && |data| >= FrameBytes {
      RunStreamUnfold(data, err, cancelAt);
      RunStreamFrames(data[FrameBytes..], err, Later(cancelAt));
      var frames := RunStream(true, data[FrameBytes..], err, Later(cancelAt)).0;
      var all := [DecodeSamples(data[..FrameBytes])] + frames;
      forall i | 0 <= i < |all| ensures all[i] == DecodeSamples(data[i * FrameBytes..(i + 1) * FrameBytes]) {
        if i > 0 {
          FrameOfSuffix(data, i);
        }
      }
    }
  }

  /** Frame i - 1 of what follows the first frame is frame i of the whole. */
  lemma FrameOfSuffix(data: seq<byte>, i: nat)
    requires 0 < i && (i + 1) * FrameBytes <= |data|
    ensures data[FrameBytes..][(i - 1) * FrameBytes..i * FrameBytes] == data[i * FrameBytes..(i + 1) * FrameBytes]
  {
    assert FrameBytes == 3840;
    assert FrameBytes + (i - 1) * FrameBytes == i * FrameBytes;
    assert FrameBytes + i * FrameBytes == (i + 1) * FrameBytes;
  }

  /** Without a voice connection the stream fails at once and delivers nothing. */
  lemma NoVoiceFails(data: seq<byte>, err: Option<string>, cancelAt: Option<nat>)
    ensures RunStream(false, data, err, cancelAt) == ([], Failed(NoVoiceError))
  {
  }
}

=== FILE: player.dfy ===
/**
 * The per-guild playback state machine of internal/bot/player.go.
 *
 * Every section of player.go that runs under the player's mutex is one atomic
 * transition on an immutable `Player` record. The play-loop goroutine is not a
 * thread here but the `task` field: where that goroutine stands between two of its
 * locked sections. Events that the goroutine performs are enabled only at the matching
 * `task`; events that come from commands (`Enqueue`, `Skip`, `ToggleLoop`, `Shutdown`)
 * are enabled everywhere, so every interleaving of the source is a sequence of events.
 */
module Playback {
  import opened Wrappers
  import opened Tracks
  import Pcm

  /**
   * Where the play-loop goroutine stands: not running; about to call `nextTrack`;
   * holding the nil that `nextTrack` returned, before it parks; holding a track, before
   * it installs the cancel handle; streaming a track.
   */
  datatype Task = Gone | Select | Park | Start(track: Track) | Stream(track: Track)

  /**
   * The state guarded by the player's mutex. `hasCancel` stands for `cancelPlayback != nil`,
   * `cancelFired` for "the installed cancel function has been called", `hasVoice` for
   * `voice != nil`, `timerArmed` for `disconnectTimer != nil`.
   */
  datatype Player = Player(
    guild: string,
    queue: seq<Track>,
    current: Option<Track>,
    loop: bool,
    playing: bool,
    skipRequested: bool,
    hasCancel: bool,
    cancelFired: bool,
    hasVoice: bool,
    timerArmed: bool,
    task: Task)

  /**
   * What always holds between two locked sections: a play loop runs exactly while
   * `playing` is set; a cancel handle exists exactly while a track streams and has been
   * fired only then; a disconnect timer is pending only while no loop runs; the track the
   * loop holds is the current one; and a loop that found nothing has cleared `current`.
   */
  predicate Inv(p: Player)
  {
    && (p.playing <==> !p.task.Gone?)
    && (p.hasCancel <==> p.task.Stream?)
    && (p.cancelFired ==> p.hasCancel)
    && (p.timerArmed ==> !p.playing)
    && ((p.task.Start? || p.task.Stream?) ==> p.current == Some(p.task.track))
    && ((p.task.Park? || p.task.Gone?) ==> p.current == None)
  }

  /** `NewPlayer`: an idle player bound to a guild, with nothing queued and no voice connection. */
  function NewPlayer(guild: string): (p: Player)
    ensures p.guild == guild && p.queue == [] && p.current == None
    ensures !p.playing && !p.loop && !p.hasVoice && !p.timerArmed
    ensures Inv(p)
  {
    Player(guild, [], None, false, false, false, false, false, false, false, Gone)
  }

  /** The state change of `EnsureConnected` once the voice join has succeeded: a voice handle is stored. */
  function Connect(p: Player): (q: Player)
    ensures q.hasVoice
    ensures q.(hasVoice := p.hasVoice) == p
  {
    p.(hasVoice := true)
  }

  /** `cancelDisconnectTimerLocked`: stops and forgets a pending disconnect timer. */
  function CancelDisconnectTimer(p: Player): (q: Player)
    ensures !q.timerArmed
    ensures q.(timerArmed := p.timerArmed) == p
  {
    p.(timerArmed := false)
  }

  /**
   * `scheduleDisconnectLocked`: stops any pending timer and arms a new one, so exactly one
   * is pending afterwards.
   */
  function ScheduleDisconnect(p: Player): (q: Player)
    ensures q.timerArmed
    ensures q.(timerArmed := p.timerArmed) == p
  {
    p.(timerArmed := true)
  }

  datatype Enqueued = Enqueued(p: Player, position: int)

  /**
   * `Enqueue`: appends at the tail, disarms the disconnect timer and starts a play loop
   * only when none runs. The position is the queue length after the append; a track
   * that is already playing is not counted.
   */
  function Enqueue(p: Player, t: Track): (r: Enqueued)
    ensures r.p.queue == p.queue + [t]
    ensures r.position == |r.p.queue| && r.position >= 1
    ensures r.p.playing && !r.p.timerArmed
    ensures !p.playing ==> r.p.task == Select
    ensures p.playing ==> r.p.task == p.task
    ensures r.p.current == p.current && r.p.loop == p.loop && r.p.skipRequested == p.skipRequested
    ensures r.p.hasCancel == p.hasCancel && r.p.cancelFired == p.cancelFired && r.p.hasVoice == p.hasVoice
    ensures r.p.guild == p.guild
  {
    var q := CancelDisconnectTimer(p.(queue := p.queue + [t]));
    var position := |q.queue|;
    if !q.playing then Enqueued(q.(playing := true, task := Select), position)
    else Enqueued(q, position)
  }

  datatype Skipped = Skipped(p: Player, active: bool)

  /**
   * `Skip`: reports whether a track is current. Only when a cancel handle exists does it
   * request the skip, switch looping off and fire the cancel; otherwise nothing changes.
   */
  function Skip(p: Player): (r: Skipped)
    ensures r.active <==> p.current.Some?
    ensures !p.hasCancel ==> r.p == p
    ensures p.hasCancel ==> r.p.skipRequested && !r.p.loop && r.p.cancelFired
    ensures p.hasCancel ==> r.p.(skipRequested := p.skipRequested, loop := p.loop, cancelFired := p.cancelFired) == p
  {
    var active := p.current != None;
    if p.hasCancel then Skipped(p.(skipRequested := true, loop := false, cancelFired := true), active)
    else Skipped(p, active)
  }

  datatype Toggled = Toggled(p: Player, loop: bool)

  /**
   * `ToggleLoop`: an explicit value is taken only while a track is current (otherwise
   * looping is switched off); no value flips the flag, and only while a track is current.
   * The result is the flag afterwards.
   */
  function ToggleLoop(p: Player, explicit: Option<bool>): (r: Toggled)
    ensures r.loop == r.p.loop
    ensures explicit.Some? ==> (r.loop <==> explicit.value && p.current.Some?)
    ensures explicit.None? && p.current.Some? ==> r.loop == !p.loop
    ensures explicit.None? && p.current.None? ==> r.loop == p.loop
    ensures r.loop && !p.loop ==> p.current.Some?
    ensures r.p.(loop := p.loop) == p
  {
    var loop :=
      if explicit.Some? then explicit.value && p.current.Some?
      else if p.current.Some? then !p.loop
      else p.loop;
    Toggled(p.(loop := loop), loop)
  }

  /**
   * `Shutdown`: fires the cancel handle if there is one and drops the voice connection.
   * The queue, the current track and the play loop are left as they are.
   */
  function Shutdown(p: Player): (q: Player)
    ensures !q.hasVoice
    ensures q.cancelFired <==> p.cancelFired || p.hasCancel
    ensures q.queue == p.queue && q.current == p.current && q.task == p.task && q.playing == p.playing
    ensures q.(hasVoice := p.hasVoice, cancelFired := p.cancelFired) == p
  {
    var fired := p.cancelFired || p.hasCancel;
    p.(hasVoice := false, cancelFired := fired)
  }

  datatype Next = Next(p: Player, track: Option<Track>, repeat: bool)

  /**
   * `nextTrack`: with looping on, a current track and no pending skip, the current track
   * again, flagged as a repeat, and nothing changes. Otherwise the pending skip is
   * cleared and the queue head is popped into `current`, or, with an empty queue,
   * `current` is cleared and nothing is returned.
   */
  function NextTrack(p: Player): (n: Next)
    ensures n.repeat <==> p.loop && p.current.Some? && !p.skipRequested
    ensures n.repeat ==> n.p == p && n.track == p.current
    ensures !n.repeat ==> !n.p.skipRequested && n.p.current == n.track
    ensures !n.repeat && p.queue == [] ==> n.track == None && n.p.queue == []
    ensures !n.repeat && p.queue != [] ==> n.track == Some(p.queue[0]) && [p.queue[0]] + n.p.queue == p.queue
    ensures n.p.(queue := p.queue, current := p.current, skipRequested := p.skipRequested) == p
  {
    if p.loop && p.current.Some? && !p.skipRequested then Next(p, p.current, true)
    else if p.queue == [] then Next(p.(skipRequested := false, current := None), None, false)
    else
      assert p.queue == [p.queue[0]] + p.queue[1..];
      Next(p.(skipRequested := false, queue := p.queue[1..], current := Some(p.queue[0])), Some(p.queue[0]), false)
  }

  /** The play loop's first locked section: ask `nextTrack`, then hold the answer. */
  function SelectStep(p: Player): (q: Player)
    requires p.task.Select?
    ensures p.loop && p.current.Some? && !p.skipRequested ==> q == p.(task := Start(p.current.value))
    ensures !(p.loop && p.current.Some? && !p.skipRequested) && p.queue == [] ==>
      q == p.(skipRequested := false, current := None, task := Park)
    ensures !(p.loop && p.current.Some? && !p.skipRequested) && p.queue != [] ==>
      q == p.(skipRequested := false, current := Some(p.queue[0]), queue := p.queue[1..], task := Start(p.queue[0]))
  {
    var n := NextTrack(p);
    if n.track.None? then n.p.(task := Park) else n.p.(task := Start(n.track.value))
  }

  /** The idle branch of the play loop, a separate locked section: stop playing, arm the timer, exit. */
  function ParkStep(p: Player): (q: Player)
    requires p.task.Park?
    ensures !q.playing && q.timerArmed && q.task.Gone?
    ensures q.queue == p.queue && q.current == p.current && q.hasVoice == p.hasVoice
    ensures q.(playing := p.playing, timerArmed := p.timerArmed, task := p.task) == p
  {
    ScheduleDisconnect(p.(playing := false, task := Gone))
  }

  /** Installing a fresh cancel handle before streaming. */
  function BeginStream(p: Player): (q: Player)
    requires p.task.Start?
    ensures q.task == Stream(p.task.track) && q.hasCancel && !q.cancelFired
    ensures q.queue == p.queue && q.current == p.current && q.loop == p.loop
    ensures q.(hasCancel := p.hasCancel, cancelFired := p.cancelFired, task := p.task) == p
  {
    p.(hasCancel := true, cancelFired := false, task := Stream(p.task.track))
  }

  /**
   * After the stream returns: the handle the loop installed is cleared and the loop goes
   * on to the next track whatever the outcome was. The source guards the clearing with a
   * comparison of two func values, which Go does not accept (a func value compares only
   * with nil); the model takes the evident intent and clears the handle unconditionally.
   */
  function FinishStream(p: Player, outcome: Pcm.Outcome): (q: Player)
    requires p.task.Stream?
    ensures q.task.Select? && !q.hasCancel && !q.cancelFired
    ensures q.queue == p.queue && q.current == p.current && q.loop == p.loop
    ensures q.skipRequested == p.skipRequested && q.playing == p.playing && q.hasVoice == p.hasVoice
    ensures q.(hasCancel := p.hasCancel, cancelFired := p.cancelFired, task := p.task) == p
  {
    p.(hasCancel := false, cancelFired := false, task := Select)
  }

  /** The player's side of the disconnect timer firing: the voice handle and the timer are dropped. */
  function TimerFires(p: Player): (q: Player)
    requires p.timerArmed
    ensures !q.hasVoice && !q.timerArmed
    ensures q.queue == p.queue && q.current == p.current && q.playing == p.playing && q.task == p.task
    ensures q.(hasVoice := p.hasVoice, timerArmed := p.timerArmed) == p
  {
    p.(hasVoice := false, timerArmed := false)
  }

  datatype Event =
    | EnqueueEv(track: Track)
    | SkipEv
    | ToggleLoopEv(explicit: Option<bool>)
    | ShutdownEv
    | ConnectEv
    | SelectEv
    | ParkEv
    | BeginEv
    | FinishEv(outcome: Pcm.Outcome)
    | TimerEv

  /** Goroutine events happen only where the goroutine stands; the timer fires only while armed. */
  predicate Enabled(p: Player, e: Event)
  {
    match e
    case SelectEv => p.task.Select?
    case ParkEv => p.task.Park?
    case BeginEv => p.task.Start?
    case FinishEv(_) => p.task.Stream?
    case TimerEv => p.timerArmed
    case _ => true
  }

  function Step(p: Player, e: Event): (q: Player)
    requires Enabled(p, e)
    ensures q.guild == p.guild
    ensures e.EnqueueEv? ==> q.queue == p.queue + [e.track]
    ensures e.SelectEv? ==> q.queue == p.queue || (p.queue != [] && q.queue == p.queue[1..])
    ensures !(e.EnqueueEv? || e.SelectEv?) ==> q.queue == p.queue
  {
    match e
    case EnqueueEv(t) => Enqueue(p, t).p
    case SkipEv => Skip(p).p
    case ToggleLoopEv(x) => ToggleLoop(p, x).p
    case ShutdownEv => Shutdown(p)
    case ConnectEv => Connect(p)
    case SelectEv =>
      var n := NextTrack(p);
      assert n.p.guild == p.guild;
      assert n.repeat || p.queue == [] ==> n.p.queue == p.queue;
      assert !n.repeat && p.queue != [] ==> n.p.queue == p.queue[1..];
      SelectStep(p)
    case ParkEv => ParkStep(p)
    case BeginEv => BeginStream(p)
    case FinishEv(o) => FinishStream(p, o)
    case TimerEv => TimerFires(p)
  }

  /** How many of the events enqueue a track. */
  function Enqueues(es: seq<Event>): nat
    decreases |es|
  {
    if es == [] then 0 else (if es[0].EnqueueEv? then 1 else 0) + Enqueues(es[1..])
  }

  /** Runs a sequence of events; None when one of them is not enabled where it occurs. */
  function Run(p: Player, es: seq<Event>): (r: Option<Player>)
    ensures es == [] ==> r == Some(p)
    ensures r.Some? ==> r.value.guild == p.guild
    ensures r.Some? ==> |r.value.queue| <= |p.queue| + Enqueues(es)
    decreases |es|
  {
    if es == [] then Some(p)
    else if Enabled(p, es[0]) then Run(Step(p, es[0]), es[1..])
    else None
  }

  /** Every transition keeps the invariant. */
  lemma StepPreservesInv(p: Player, e: Event)
    requires Inv(p) && Enabled(p, e)
    ensures Inv(Step(p, e))
  {
  }

  /** Every state reachable from a new player satisfies the invariant. */
  lemma {:induction false} RunPreservesInv(p: Player, es: seq<Event>)
    requires Inv(p)
    ensures Run(p, es).Some? ==> Inv(Run(p, es).value)
    decreases |es|
  {
    if es != [] && Enabled(p, es[0]) {
      StepPreservesInv(p, es[0]);
      RunPreservesInv(Step(p, es[0]), es[1..]);
    }
  }

  /**
   * Looping replays in place: when a stream ends with looping on and no skip pending,
   * the loop starts the same track again and the queue is untouched.
   */
  lemma LoopReplaysInPlace(p: Player, o: Pcm.Outcome)
    requires Inv(p) && p.task.Stream? && p.loop && !p.skipRequested
    ensures var q := SelectStep(FinishStream(p, o));
      q.task == Start(p.task.track) && q.queue == p.queue && q.current == p.current
  {
  }

  /**
   * A skip during a stream always moves on, even with looping on: the next track is the
   * queue head, or there is none and the loop parks.
   */
  lemma SkipAdvances(p: Player, o: Pcm.Outcome)
    requires Inv(p) && p.task.Stream?
    ensures Skip(p).active
    ensures var q := SelectStep(FinishStream(Skip(p).p, o));
      && !q.loop && !q.skipRequested
      && (p.queue != [] ==> q.task == Start(p.queue[0]) && q.queue == p.queue[1..])
      && (p.queue == [] ==> q.task.Park? && q.current == None)
  {
  }

  /**
   * A skip in the short window between `nextTrack` and the cancel handle being installed
   * reports success but changes nothing: the track still plays, and repeats if looping.
   */
  lemma SkipBeforeStreamIsLost(p: Player)
    requires Inv(p) && p.task.Start?
    ensures Skip(p).active && Skip(p).p == p
  {
  }

  /** Toggling twice with no explicit value restores the player. */
  lemma ToggleTwiceRestores(p: Player)
    ensures ToggleLoop(ToggleLoop(p, None).p, None).p == p
  {
  }

  /** Shutting down twice is shutting down once. */
  lemma ShutdownIdempotent(p: Player)
    ensures Shutdown(Shutdown(p)) == Shutdown(p)
  {
  }

  /**
   * After a shutdown every stream the loop starts fails at once for want of a voice
   * connection, sending no audio. With `loop` off the loop drains the queue this way;
   * with `loop` on it replays the current track instead (`LoopingAfterShutdownSpins`).
   */
  lemma StreamAfterShutdownFails(p: Player, data: seq<Pcm.byte>, err: Option<string>, cancelAt: Option<nat>)
    ensures var q := Shutdown(p);
      Pcm.RunStream(q.hasVoice, data, err, cancelAt) == ([], Pcm.Failed(Pcm.NoVoiceError))
  {
    Pcm.NoVoiceFails(data, err, cancelAt);
  }

  /**
   * A shutdown does not stop a looping player: the stream it cancels ends, `nextTrack`
   * hands out the same track again, and every later round fails at once for want of a
   * voice connection and comes back to the very same state. The queue is never reached.
   */
  lemma LoopingAfterShutdownSpins(p: Player, o: Pcm.Outcome)
    requires Inv(p) && p.task.Stream? && p.loop && !p.skipRequested
    ensures var r := Run(Shutdown(p), [FinishEv(o), SelectEv, BeginEv]);
      && r.Some? && r.value.task == p.task && r.value.queue == p.queue && !r.value.hasVoice
      && Pcm.RunStream(r.value.hasVoice, [], None, None).1 == Pcm.Failed(Pcm.NoVoiceError)
      && Run(r.value, [FinishEv(Pcm.Failed(Pcm.NoVoiceError)), SelectEv, BeginEv]) == r
  {
    var q := p.(hasVoice := false, cancelFired := false);
    LoopingRound(Shutdown(p), o, q);
    LoopingRound(q, Pcm.Failed(Pcm.NoVoiceError), q);
    Pcm.NoVoiceFails([], None, None);
  }

  /** One looping round, from a streaming state back to streaming the same track with a fresh handle. */
  lemma LoopingRound(p: Player, o: Pcm.Outcome, q: Player)
    requires p.task.Stream? && p.loop && !p.skipRequested && p.current == Some(p.task.track)
    requires q == p.(hasCancel := true, cancelFired := false)
    ensures Run(p, [FinishEv(o), SelectEv, BeginEv]) == Some(q)
  {
    var p1 := Step(p, FinishEv(o));
    var p2 := Step(p1, SelectEv);
    assert p2 == p1.(task := Start(p.task.track));
    var p3 := Step(p2, BeginEv);
    assert p3 == q;
    var es := [FinishEv(o), SelectEv, BeginEv];
    assert Run(p2, es[2..]) == Some(q);
    assert Run(p1, es[1..]) == Some(q);
  }

  /** Enqueues a list of tracks one after the other, collecting the positions reported. */
  function EnqueueAll(p: Player, ts: seq<Track>): (Player, seq<int>)
    decreases |ts|
  {
    if ts == [] then (p, [])
    else
      var r := Enqueue(p, ts[0]);
      var (q, ps) := EnqueueAll(r.p, ts[1..]);
      (q, [r.position] + ps)
  }

  /**
   * Tracks enqueued one after the other line up at the tail in order, and the positions
   * reported count up from the queue length before the first of them.
   */
  lemma {:induction false} EnqueueAllAppends(p: Player, ts: seq<Track>)
    ensures var (q, ps) := EnqueueAll(p, ts);
      && q.queue == p.queue + ts
      && |ps| == |ts|
      && (forall i :: 0 <= i < |ps| ==> ps[i] == |p.queue| + i + 1)
      && q.current == p.current
      && (ts != [] ==> q.playing)
    decreases |ts|
  {
    if ts != [] {
      var r := Enqueue(p, ts[0]);
      EnqueueAllAppends(r.p, ts[1..]);
      var (q, ps) := EnqueueAll(r.p, ts[1..]);
      assert p.queue + ts == r.p.queue + ts[1..];
      forall i | 0 <= i < |ps| + 1
        ensures ([r.position] + ps)[i] == |p.queue| + i + 1
      {
        if i > 0 { assert ([r.position] + ps)[i] == ps[i - 1]; }
      }
    }
  }

  /** The tracks `n` calls of `nextTrack` hand out, in order. */
  function Handed(p: Player, n: nat): seq<Option<Track>>
    decreases n
  {
    if n == 0 then []
    else
      var r := NextTrack(p);
      [r.track] + Handed(r.p, n - 1)
  }

  /**
   * Without looping, `nextTrack` hands out the queue first in, first out, and then
   * nothing: the k-th call gives the k-th queued track.
   */
  lemma {:induction false} HandedInQueueOrder(p: Player, n: nat)
    requires !p.loop
    ensures |Handed(p, n)| == n
    ensures forall k :: 0 <= k < n ==> Handed(p, n)[k] == if k < |p.queue| then Some(p.queue[k]) else None
    decreases n
  {
    if n > 0 {
      var r := NextTrack(p);
      HandedInQueueOrder(r.p, n - 1);
      forall k | 0 <= k < n
        ensures Handed(p, n)[k] == if k < |p.queue| then Some(p.queue[k]) else None
      {
        if k > 0 {
          assert Handed(p, n)[k] == Handed(r.p, n - 1)[k - 1];
          if p.queue != [] {
            assert r.p.queue == p.queue[1..];
          }
        }
      }
    }
  }

  /**
   * The position reported by `Enqueue` ignores the track already playing: a second
   * track enqueued while the first plays is told it is at position 1, "next".
   */
  lemma PositionIgnoresCurrent(guild: string, a: Track, b: Track)
    ensures var p := Run(NewPlayer(guild), [EnqueueEv(a), SelectEv]);
      && p.Some? && p.value.current == Some(a)
      && Enqueue(p.value, b).position == 1
  {
    var p0 := NewPlayer(guild);
    var p1 := Step(p0, EnqueueEv(a));
    assert p1.queue == [a] && p1.task.Select?;
    var p2 := Step(p1, SelectEv);
    assert p2.current == Some(a) && p2.queue == [];
    assert Run(p2, []) == Some(p2);
    assert Run(p1, [SelectEv]) == Some(p2);
  }

  /** Running two event sequences one after the other is running their concatenation. */
  lemma {:induction false} RunAppend(p: Player, a: seq<Event>, b: seq<Event>)
    ensures Run(p, a + b) == if Run(p, a).Some? then Run(Run(p, a).value, b) else None
    decreases |a|
  {
    if a == [] {
      assert a + b == b;
    } else {
      assert (a + b)[0] == a[0];
      assert (a + b)[1..] == a[1..] + b;
      if Enabled(p, a[0]) {
        RunAppend(Step(p, a[0]), a[1..], b);
      }
    }
  }

  /** From a new player, one enqueued track is picked up and streamed, with nothing else pending. */
  lemma FirstTrackStreams(guild: string, a: Track) returns (es: seq<Event>, p: Player)
    ensures Run(NewPlayer(guild), es) == Some(p)
    ensures p.task == Stream(a) && p.current == Some(a) && p.queue == []
    ensures p.playing && !p.loop && !p.skipRequested && p.hasCancel && !p.cancelFired && !p.timerArmed
  {
    var p0 := NewPlayer(guild);
    var p1 := Step(p0, EnqueueEv(a));
    var p2 := Step(p1, SelectEv);
    p := Step(p2, BeginEv);
    es := [EnqueueEv(a), SelectEv, BeginEv];
    assert Run(p2, es[2..]) == Some(p);
    assert Run(p1, es[1..]) == Some(p);
  }

  /**
   * The loop flag can outlive its track: skip a streaming track, switch looping on
   * while it winds down, and once the queue runs dry the player idles with looping on
   * and nothing current.
   */
  lemma LoopOutlivesTrack(guild: string, a: Track) returns (es: seq<Event>, q: Player)
    ensures Run(NewPlayer(guild), es) == Some(q)
    ensures q.loop && q.current == None && !q.playing
  {
    var es1, p3 := FirstTrackStreams(guild, a);
    var p4 := Step(p3, SkipEv);
    var p5 := Step(p4, ToggleLoopEv(Some(true)));
    assert p5.loop && p5.skipRequested && p5.task.Stream?;
    var p6 := Step(p5, FinishEv(Pcm.Canceled));
    var p7 := Step(p6, SelectEv);
    assert p7.task.Park? && p7.loop;
    q := Step(p7, ParkEv);
    var es2 := [SkipEv, ToggleLoopEv(Some(true)), FinishEv(Pcm.Canceled), SelectEv, ParkEv];
    assert Run(p7, es2[4..]) == Some(q);
    assert Run(p6, es2[3..]) == Some(q);
    assert Run(p5, es2[2..]) == Some(q);
    assert Run(p4, es2[1..]) == Some(q);
    RunAppend(NewPlayer(guild), es1, es2);
    es := es1 + es2;
  }

  /**
   * As written, a track can be stranded: `nextTrack` finds the queue empty and releases
   * the lock; an `Enqueue` in that gap sees a loop still running, starts none and
   * reports position 1; the loop then parks. The track sits in the queue with no loop
   * to play it and the disconnect timer armed.
   */
  lemma StrandedTrack(guild: string, a: Track, b: Track) returns (es: seq<Event>, q: Player)
    ensures Run(NewPlayer(guild), es) == Some(q)
    ensures q.queue == [b] && !q.playing && q.task.Gone? && q.timerArmed
  {
    var es1, p3 := FirstTrackStreams(guild, a);
    var p4 := Step(p3, FinishEv(Pcm.Completed));
    var p5 := Step(p4, SelectEv);
    assert p5.task.Park? && p5.queue == [] && p5.playing;
    var r := Enqueue(p5, b);
    assert r.position == 1;
    var p6 := r.p;
    q := Step(p6, ParkEv);
    var es2 := [FinishEv(Pcm.Completed), SelectEv, EnqueueEv(b), ParkEv];
    assert Run(p6, es2[3..]) == Some(q);
    assert Run(p5, es2[2..]) == Some(q);
    assert Run(p4, es2[1..]) == Some(q);
    RunAppend(NewPlayer(guild), es1, es2);
    es := es1 + es2;
  }

  /**
   * The corrected idle step: when `nextTrack` finds nothing, stop playing and arm the
   * timer in the same locked section, so no `Enqueue` can slip in between.
   */
  function SelectStepFixed(p: Player): (q: Player)
    requires p.task.Select?
    ensures NextTrack(p).track.Some? ==> q == SelectStep(p)
    ensures NextTrack(p).track.None? ==> q == ParkStep(SelectStep(p))
  {
    var n := NextTrack(p);
    if n.track.None? then ScheduleDisconnect(n.p.(playing := false, task := Gone))
    else n.p.(task := Start(n.track.value))
  }

  function StepFixed(p: Player, e: Event): Player
    requires Enabled(p, e)
  {
    if e.SelectEv? then SelectStepFixed(p) else Step(p, e)
  }

  function RunFixed(p: Player, es: seq<Event>): Option<Player>
    decreases |es|
  {
    if es == [] then Some(p)
    else if Enabled(p, es[0]) then RunFixed(StepFixed(p, es[0]), es[1..])
    else None
  }

  /** The corrected machine's invariant: a non-empty queue always has a loop to play it. */
  predicate InvFixed(p: Player)
  {
    && Inv(p)
    && !p.task.Park?
    && (!p.playing ==> p.queue == [])
  }

  lemma StepFixedPreservesInv(p: Player, e: Event)
    requires InvFixed(p) && Enabled(p, e)
    ensures InvFixed(StepFixed(p, e))
  {
  }

  /** With the corrected idle step, no reachable state leaves a queued track without a play loop. */
  lemma {:induction false} NoStrandedTrack(p: Player, es: seq<Event>)
    requires InvFixed(p)
    ensures RunFixed(p, es).Some? ==> InvFixed(RunFixed(p, es).value)
    ensures RunFixed(p, es).Some? && RunFixed(p, es).value.queue != [] ==> RunFixed(p, es).value.playing
    decreases |es|
  {
    if es != [] && Enabled(p, es[0]) {
      StepFixedPreservesInv(p, es[0]);
      NoStrandedTrack(StepFixed(p, es[0]), es[1..]);
    }
  }

  /** A new player satisfies the corrected invariant, so no state reachable from it strands a track. */
  lemma NoStrandedTrackFromNew(guild: string, es: seq<Event>)
    ensures InvFixed(NewPlayer(guild))
    ensures var r := RunFixed(NewPlayer(guild), es);
      r.Some? && r.value.queue != [] ==> r.value.playing
  {
    NoStrandedTrack(NewPlayer(guild), es);
  }
}

=== FILE: registry.dfy ===
/**
 * The guild-to-player registry of internal/bot/bot.go (`getPlayer`, `findPlayer`,
 * `releasePlayer`, `snapshotPlayers`) and the two places that act on every player or
 * on the registry from a player: `Close`'s shutdown fan-out and the disconnect timer.
 *
 * A Go `*Player` is a `PlayerId`; the bot keeps the state behind each id in `players`.
 * Ids are handed out from a counter, which stands for Go allocating a new object.
 */
module Registry {
  import opened Wrappers
  import opened GoMaps
  import Tracks
  import Playback

  type PlayerId = nat

  /** `Kvazar.players` and the next id to hand out. */
  datatype Registry = Registry(players: map<string, PlayerId>, next: PlayerId)

  /** Every registered id was handed out, and no two guilds share a player. */
  predicate Valid(r: Registry)
  {
    && (forall g :: g in r.players ==> r.players[g] < r.next)
    && (forall g1, g2 :: g1 in r.players && g2 in r.players && r.players[g1] == r.players[g2] ==> g1 == g2)
  }

  function EmptyRegistry(): (r: Registry)
    ensures r.players == map[] && Valid(r)
  {
    Registry(map[], 0)
  }

  datatype Got = Got(r: Registry, id: PlayerId, created: bool)

  /**
   * `getPlayer`: the registered player when the guild has one, else a new player that is
   * registered for it. Afterwards the guild maps to the returned player and every other
   * guild is as before.
   */
  function GetPlayer(r: Registry, guild: string): (res: Got)
    ensures guild in res.r.players && res.r.players[guild] == res.id
    ensures res.created <==> guild !in r.players
    ensures !res.created ==> res.r == r
    ensures res.created ==> res.r.players == r.players[guild := res.id]
    ensures Valid(r) && res.created ==> res.id !in r.players.Values
    ensures Valid(r) ==> Valid(res.r)
  {
    if guild in r.players then Got(r, r.players[guild], false)
    else Got(Registry(r.players[guild := r.next], r.next + 1), r.next, true)
  }

  /** `findPlayer`: a lookup that never inserts; None for an unregistered guild. */
  function FindPlayer(r: Registry, guild: string): (id: Option<PlayerId>)
    ensures id.Some? <==> guild in r.players
    ensures id.Some? ==> id.value == r.players[guild]
  {
    if guild in r.players then Some(r.players[guild]) else None
  }

  /** `releasePlayer`: removes the guild's entry only; a no-op for an unregistered guild. */
  function ReleasePlayer(r: Registry, guild: string): (q: Registry)
    ensures guild !in q.players
    ensures forall g :: g != guild ==> (g in q.players <==> g in r.players)
    ensures forall g :: g != guild && g in r.players ==> q.players[g] == r.players[g]
    ensures guild !in r.players ==> q == r
    ensures Valid(r) ==> Valid(q)
  {
    Registry(r.players - {guild}, r.next)
  }

  /** A second `getPlayer` for the same guild returns the same player and changes nothing. */
  lemma GetPlayerStable(r: Registry, guild: string)
    ensures var a := GetPlayer(r, guild);
      var b := GetPlayer(a.r, guild);
      b.id == a.id && b.r == a.r && !b.created
  {
  }

  /** What `getPlayer` registered, `findPlayer` finds. */
  lemma FindAfterGet(r: Registry, guild: string)
    ensures FindPlayer(GetPlayer(r, guild).r, guild) == Some(GetPlayer(r, guild).id)
  {
  }

  /**
   * After a release the guild is not found, and the next `getPlayer` creates a player
   * different from the released one.
   */
  lemma ReleaseThenGet(r: Registry, guild: string)
    requires Valid(r) && guild in r.players
    ensures FindPlayer(ReleasePlayer(r, guild), guild) == None
    ensures var g := GetPlayer(ReleasePlayer(r, guild), guild);
      g.created && g.id != r.players[guild]
  {
  }

  /**
   * `snapshotPlayers`: the registered players, collected in the map's iteration order,
   * one per guild.
   */
  method SnapshotPlayers(r: Registry, order: seq<string>) returns (res: seq<PlayerId>)
    requires IsIterationOrder(r.players, order)
    ensures |res| == |order| == |r.players|
    ensures forall i :: 0 <= i < |res| ==> res[i] == r.players[order[i]]
    ensures forall id :: id in res <==> id in r.players.Values
  {
    OrderLength(r.players, order);
    res := [];
    var i := 0;
    while i < |order|
      invariant 0 <= i <= |order|
      invariant |res| == i
      invariant forall k :: 0 <= k < i ==> res[k] == r.players[order[k]]
    {
      res := res + [r.players[order[i]]];
      i := i + 1;
    }
    forall id | id in r.players.Values ensures id in res {
      var g :| g in r.players && r.players[g] == id;
      var k :| 0 <= k < |order| && order[k] == g;
      assert res[k] == id;
    }
  }

  /** The bot's view: the registry and the state of every player ever created. */
  datatype Bot = Bot(registry: Registry, players: map<PlayerId, Playback.Player>)

  /** The bot as `New` sets it up: no guild registered and no player created. */
  function NewBot(): (b: Bot)
    ensures BotValid(b)
    ensures b.registry.players == map[] && b.players == map[]
  {
    Bot(EmptyRegistry(), map[])
  }

  /** Every registered id has a player behind it. */
  predicate Resolves(b: Bot)
  {
    forall g :: g in b.registry.players ==> b.registry.players[g] in b.players
  }

  /** Every registered player is bound to the guild it is registered under. */
  predicate Bound(b: Bot)
    requires Resolves(b)
  {
    forall g :: g in b.registry.players ==> b.players[b.registry.players[g]].guild == g
  }

  /**
   * What holds of the bot between operations: a valid registry whose ids all resolve to
   * players bound to their guilds, and no id in use ahead of the counter.
   */
  predicate BotValid(b: Bot)
  {
    && Valid(b.registry)
    && Resolves(b)
    && Bound(b)
    && (forall id :: id in b.players ==> id < b.registry.next)
  }

  /**
   * `getPlayer` at the bot level: a player created here starts idle and bound to the
   * guild; an existing one is returned untouched.
   */
  function GetBotPlayer(b: Bot, guild: string): (res: (Bot, PlayerId))
    requires BotValid(b)
    ensures BotValid(res.0) && res.1 in res.0.players
    ensures guild in b.registry.players ==> res.0 == b && res.1 == b.registry.players[guild]
    ensures guild !in b.registry.players ==> res.0.players == b.players[res.1 := Playback.NewPlayer(guild)] && res.1 !in b.players
  {
    var got := GetPlayer(b.registry, guild);
    if got.created then (Bot(got.r, b.players[got.id := Playback.NewPlayer(guild)]), got.id)
    else (b, got.id)
  }

  /**
   * The first locked section of the disconnect timer's callback, under the player's
   * mutex: the player drops its voice handle and its timer. The registry is untouched;
   * the guild is released later, in a section of its own (`ReleaseGuild`).
   */
  function TimerFired(b: Bot, id: PlayerId): (c: Bot)
    requires id in b.players && b.players[id].timerArmed
    ensures id in c.players && !c.players[id].hasVoice && !c.players[id].timerArmed
    ensures c.players[id].queue == b.players[id].queue && c.players[id].guild == b.players[id].guild
    ensures c.players[id].playing == b.players[id].playing
    ensures c.players[id] == Playback.TimerFires(b.players[id])
    ensures c.registry == b.registry
    ensures forall other :: other in b.players && other != id ==> other in c.players && c.players[other] == b.players[other]
    ensures c.players.Keys == b.players.Keys
    ensures BotValid(b) ==> BotValid(c)
  {
    Bot(b.registry, b.players[id := Playback.TimerFires(b.players[id])])
  }

  /**
   * The callback's last section, under the registry's mutex: `releasePlayer` for the
   * player's guild. It goes by guild, so it removes whatever player the guild is
   * registered to at that moment; no player's state changes.
   */
  function ReleaseGuild(b: Bot, guild: string): (c: Bot)
    ensures c.players == b.players
    ensures guild !in c.registry.players
    ensures forall g :: g != guild ==> (g in c.registry.players <==> g in b.registry.players)
    ensures forall g :: g != guild && g in b.registry.players ==> c.registry.players[g] == b.registry.players[g]
    ensures BotValid(b) ==> BotValid(c)
  {
    Bot(ReleasePlayer(b.registry, guild), b.players)
  }

  /** `/play`'s state change on a player it got from the registry: the track is enqueued. */
  function BotEnqueue(b: Bot, id: PlayerId, t: Tracks.Track): (c: Bot)
    requires id in b.players
    ensures c.registry == b.registry && c.players == b.players[id := Playback.Enqueue(b.players[id], t).p]
    ensures BotValid(b) ==> BotValid(c)
  {
    Bot(b.registry, b.players[id := Playback.Enqueue(b.players[id], t).p])
  }

  /**
   * Because the timer's callback releases the guild in a separate section, a `/play` in
   * between gets the still-registered player and starts its play loop; the release then
   * evicts that playing player, and the next `/play` creates a second player for the
   * same guild while the first one still plays.
   */
  lemma TimerEvictsPlayingPlayer(b: Bot, guild: string, t: Tracks.Track)
    requires BotValid(b) && guild in b.registry.players
    requires b.players[b.registry.players[guild]].timerArmed
    ensures var id := b.registry.players[guild];
      var b1 := TimerFired(b, id);
      var (b2, got) := GetBotPlayer(b1, guild);
      var b3 := BotEnqueue(b2, got, t);
      var b4 := ReleaseGuild(b3, guild);
      var (b5, other) := GetBotPlayer(b4, guild);
      && got == id
      && guild !in b4.registry.players
      && other != id && id in b5.players && b5.players[id].playing && b5.players[id].queue[|b5.players[id].queue| - 1] == t
      && b5.registry.players[guild] == other
  {
    var id := b.registry.players[guild];
    var b1 := TimerFired(b, id);
    var (b2, got) := GetBotPlayer(b1, guild);
    assert got == id && b2 == b1;
    var b3 := BotEnqueue(b2, got, t);
    var b4 := ReleaseGuild(b3, guild);
    var (b5, other) := GetBotPlayer(b4, guild);
    assert other !in b4.players;
  }

  /** `ps` is `orig` with exactly the players in `done` shut down. */
  predicate ShutDownExactly(orig: map<PlayerId, Playback.Player>, ps: map<PlayerId, Playback.Player>, done: set<PlayerId>)
  {
    && ps.Keys == orig.Keys
    && forall id :: id in ps ==> ps[id] == if id in done then Playback.Shutdown(orig[id]) else orig[id]
  }

  /** One more step of the fan-out: shutting down a player, once or again, leaves it shut down. */
  lemma ShutdownOnce(orig: map<PlayerId, Playback.Player>, ps: map<PlayerId, Playback.Player>, done: set<PlayerId>, id: PlayerId)
    requires id in orig && ShutDownExactly(orig, ps, done)
    ensures ShutDownExactly(orig, ps[id := Playback.Shutdown(ps[id])], done + {id})
  {
    Playback.ShutdownIdempotent(orig[id]);
  }

  /** Shuts down the listed players one after the other. */
  method ShutdownEach(players: map<PlayerId, Playback.Player>, ids: seq<PlayerId>) returns (ps: map<PlayerId, Playback.Player>)
    requires forall k :: 0 <= k < |ids| ==> ids[k] in players
    ensures ShutDownExactly(players, ps, set k | 0 <= k < |ids| :: ids[k])
  {
    ps := players;
    var done: set<PlayerId> := {};
    var i := 0;
    while i < |ids|
      invariant 0 <= i <= |ids|
      invariant ShutDownExactly(players, ps, done)
      invariant done == set k | 0 <= k < i :: ids[k]
    {
      var id := ids[i];
      ShutdownOnce(players, ps, done, id);
      ps := ps[id := Playback.Shutdown(ps[id])];
      done := done + {id};
      i := i + 1;
    }
  }

  /** The ids a snapshot lists, gathered into a set, are the registered ones. */
  lemma ListedAreRegistered(r: Registry, ids: seq<PlayerId>)
    requires forall id :: id in ids <==> id in r.players.Values
    ensures (set k | 0 <= k < |ids| :: ids[k]) == r.players.Values
  {
    forall id | id in r.players.Values ensures id in set k | 0 <= k < |ids| :: ids[k] {
      var k :| 0 <= k < |ids| && ids[k] == id;
    }
  }

  /**
   * `Close`'s fan-out: every player the snapshot lists is shut down; unregistered players
   * and the registry itself are left alone.
   */
  method Close(b: Bot, order: seq<string>) returns (c: Bot)
    requires IsIterationOrder(b.registry.players, order)
    requires Resolves(b)
    ensures c.registry == b.registry
    ensures ShutDownExactly(b.players, c.players, b.registry.players.Values)
  {
    var ids := SnapshotPlayers(b.registry, order);
    var ps := ShutdownEach(b.players, ids);
    ListedAreRegistered(b.registry, ids);
    c := Bot(b.registry, ps);
  }
}

=== FILE: resolver.dfy ===
/**
 * The pure parts of internal/media/resolver.go: resolver defaults, how a user's
 * query is turned into a yt-dlp argument, and how a yt-dlp JSON item becomes a Track.
 * Running yt-dlp and decoding its JSON are outside the model.
 */
module Resolve {
  import opened Text
  import opened Tracks

  const DefaultExecutable: string := "yt-dlp"

  /** 20 seconds, as a Go `time.Duration` in nanoseconds. */
  const DefaultTimeout: int := 20 * Second

  datatype Resolver = Resolver(executable: string, timeout: int)

  /** `NewResolver`: a blank executable path falls back to "yt-dlp"; the timeout is always 20 s. */
  function NewResolver(path: string): (r: Resolver)
    ensures r.timeout == 20 * Second
    ensures IsBlank(path) ==> r.executable == DefaultExecutable
    ensures !IsBlank(path) ==> r.executable == path
  {
    var exe := if TrimSpace(path) == "" then DefaultExecutable else path;
    Resolver(exe, DefaultTimeout)
  }

  /**
   * `looksLikeURL`. `parses` stands for the outcome of Go's `url.Parse` (no error, a
   * scheme and a host), which is not modelled; only the "://" pre-check is.
   */
  function LooksLikeURL(value: string, parses: string -> bool): (r: bool)
    ensures !Contains(value, "://") ==> !r
    ensures r ==> parses(value)
  {
    Contains(value, "://") && parses(value)
  }

  /** The search prefixes yt-dlp understands. */
  const YouTubeSearch: string := "ytsearch:"
  const SoundCloudSearch: string := "scsearch:"

  /** The case-insensitive "sc " marker that routes a query to SoundCloud search. */
  predicate HasScMarker(trimmed: string)
  {
    HasPrefix(Lower(trimmed), "sc ")
  }

  /** `prepareQuery`: blank stays empty, URLs pass through, everything else becomes a search. */
  function PrepareQuery(q: string, parses: string -> bool): (r: string)
    ensures r == "" <==> IsBlank(q)
    ensures !IsBlank(q) && LooksLikeURL(TrimSpace(q), parses) ==> r == TrimSpace(q)
    ensures !IsBlank(q) && !LooksLikeURL(TrimSpace(q), parses) ==>
      if HasScMarker(TrimSpace(q)) then r == SoundCloudSearch + TrimSpace(TrimSpace(q)[3..])
      else r == YouTubeSearch + TrimSpace(q)
  {
    var trimmed := TrimSpace(q);
    if trimmed == "" then trimmed
    else if LooksLikeURL(trimmed, parses) then trimmed
    else if HasScMarker(trimmed) then SoundCloudSearch + TrimSpace(trimmed[3..])
    else YouTubeSearch + trimmed
  }

  /**
   * The "sc " marker can only be spelled with ASCII characters ('s' or 'S', 'c' or 'C',
   * a space), so cutting three characters off is the same as the source's three-byte slice.
   */
  lemma ScMarkerIsAscii(trimmed: string)
    requires HasScMarker(trimmed)
    ensures trimmed[0] in {'s', 'S'} && trimmed[1] in {'c', 'C'} && trimmed[2] == ' '
  {
    assert Lower(trimmed)[..3] == "sc ";
    assert LowerChar(trimmed[0]) == 's' && LowerChar(trimmed[1]) == 'c' && LowerChar(trimmed[2]) == ' ';
  }

  /**
   * A query that is neither blank nor a URL becomes a search whose term is never blank
   * and carries no surrounding white space: the trimmed query, or for "sc " the rest after it.
   */
  lemma SearchTermNonBlank(q: string, parses: string -> bool) returns (prefix: string, term: string)
    requires !IsBlank(q) && !LooksLikeURL(TrimSpace(q), parses)
    ensures PrepareQuery(q, parses) == prefix + term
    ensures prefix == (if HasScMarker(TrimSpace(q)) then SoundCloudSearch else YouTubeSearch)
    ensures term == (if HasScMarker(TrimSpace(q)) then TrimSpace(TrimSpace(q)[3..]) else TrimSpace(q))
    ensures term != "" && !IsSpace(term[0]) && !IsSpace(term[|term| - 1])
    ensures TrimSpace(term) == term
  {
    var t := TrimSpace(q);
    TrimmedEnds(q);
    if HasScMarker(t) {
      prefix := SoundCloudSearch;
      ScMarkerIsAscii(t);
      var rest := t[3..];
      assert |rest| > 0 && rest[|rest| - 1] == t[|t| - 1];
      NotBlankIfLastNotSpace(rest);
      TrimmedEnds(rest);
      TrimSpaceIdempotent(rest);
      term := TrimSpace(rest);
    } else {
      prefix := YouTubeSearch;
      TrimSpaceIdempotent(q);
      term := t;
    }
  }

  /** `fallbackURL`: the first argument that is not blank, returned untrimmed, or "". */
  function FallbackURL(values: seq<string>): (r: string)
    ensures r == "" || r in values
    decreases |values|
  {
    if |values| == 0 then ""
    else if TrimSpace(values[0]) != "" then values[0]
    else FallbackURL(values[1..])
  }

  /** FallbackURL picks the first non-blank argument, and "" only when every argument is blank. */
  lemma {:induction false} FallbackURLFirst(values: seq<string>) returns (i: nat)
    ensures i <= |values|
    ensures forall j :: 0 <= j < i ==> IsBlank(values[j])
    ensures i < |values| ==> !IsBlank(values[i]) && FallbackURL(values) == values[i]
    ensures i == |values| ==> FallbackURL(values) == ""
    decreases |values|
  {
    if |values| == 0 {
      i := 0;
    } else if !IsBlank(values[0]) {
      i := 0;
    } else {
      var k := FallbackURLFirst(values[1..]);
      i := k + 1;
      forall j | 0 <= j < i ensures IsBlank(values[j]) {
        if j > 0 { assert values[j] == values[1..][j - 1]; }
      }
    }
  }

  /** `mapPayloadToTrack`'s classification of yt-dlp's extractor key; "youtube" is checked first. */
  function SourceOf(extractor: string): (r: string)
    ensures r == SourceYouTube <==> Contains(Lower(extractor), "youtube")
    ensures r == SourceSoundCloud <==> !Contains(Lower(extractor), "youtube") && Contains(Lower(extractor), "soundcloud")
    ensures r == SourceUnknown <==> !Contains(Lower(extractor), "youtube") && !Contains(Lower(extractor), "soundcloud")
  {
    var key := Lower(extractor);
    if Contains(key, "youtube") then SourceYouTube
    else if Contains(key, "soundcloud") then SourceSoundCloud
    else SourceUnknown
  }

  /** Lower-casing twice is lower-casing once. */
  lemma LowerIdempotent(s: string)
    ensures Lower(Lower(s)) == Lower(s)
  {
  }

  /** The classification ignores letter case in the extractor key. */
  lemma SourceOfIgnoresCase(extractor: string)
    ensures SourceOf(Lower(extractor)) == SourceOf(extractor)
  {
    LowerIdempotent(extractor);
  }

  /**
   * The fields of a yt-dlp JSON item that `mapPayloadToTrack` reads. `duration` is already
   * the converted `time.Duration` (the float-seconds conversion is not modelled).
   */
  datatype Item = Item(
    id: string,
    title: string,
    uploader: string,
    webpageURL: string,
    duration: int,
    url: string,
    thumbnail: string,
    extractor: string,
    httpHeaders: map<string, string>)

  /** `mapPayloadToTrack`: requester, channel and timestamp are filled in later by `Resolve`. */
  function MapPayloadToTrack(item: Item): (t: Track)
    ensures t.streamURL == item.url
    ensures t.webURL == FallbackURL([item.webpageURL, item.url])
    ensures t.source == SourceOf(item.extractor)
    ensures t.source in {SourceYouTube, SourceSoundCloud, SourceUnknown}
    ensures t.id == item.id && t.thumbnail == item.thumbnail && t.duration == item.duration
    ensures t.title == item.title && t.author == item.uploader && t.httpHeaders == item.httpHeaders
    ensures t.requestedBy == "" && t.requestChannelID == ""
  {
    Track(item.id, item.title, item.uploader, FallbackURL([item.webpageURL, item.url]), item.url,
          item.thumbnail, item.duration, SourceOf(item.extractor), "", "", item.httpHeaders)
  }

  /**
   * The web link of a mapped track is the page URL when that is not blank, else the
   * stream URL when that is not blank, else "".
   */
  lemma WebURLFallsBack(item: Item)
    ensures var t := MapPayloadToTrack(item);
      && (!IsBlank(item.webpageURL) ==> t.webURL == item.webpageURL)
      && (IsBlank(item.webpageURL) && !IsBlank(item.url) ==> t.webURL == item.url)
      && (IsBlank(item.webpageURL) && IsBlank(item.url) ==> t.webURL == "")
      && (IsBlank(t.webURL) <==> IsBlank(item.webpageURL) && IsBlank(item.url))
  {
    var i := FallbackURLFirst([item.webpageURL, item.url]);
    assert IsBlank("");
  }
}

=== FILE: text.dfy ===
/**
 * The handful of Go `strings` and `unicode` routines the bot relies on, over
 * Dafny strings (sequences of Unicode scalar values): white-space trimming,
 * case folding, prefix and substring search, and joining.
 */
module Text {

  /** Go's `unicode.IsSpace`: the Latin-1 spaces plus the Unicode White_Space property. */
  predicate IsSpace(c: char)
  {
    || c == '\t' || c == '\n' || c == '\U{000B}' || c == '\U{000C}' || c == '\r' || c == ' '
    || c == '\U{0085}' || c == '\U{00A0}'
    || c == '\U{1680}'
    || ('\U{2000}' <= c <= '\U{200A}')
    || c == '\U{2028}' || c == '\U{2029}' || c == '\U{202F}' || c == '\U{205F}' || c == '\U{3000}'
  }

  /** Every character of `s` is white space (vacuously true of ""). */
  predicate AllSpace(s: string)
  {
    forall k :: 0 <= k < |s| ==> IsSpace(s[k])
  }

  /** Drops leading white space: the result is the suffix of `s` that starts at its first non-space. */
  function TrimLeft(s: string): (r: string)
    ensures |r| <= |s| && r == s[|s| - |r|..]
    ensures AllSpace(s[..|s| - |r|])
    ensures |r| > 0 ==> !IsSpace(r[0])
    decreases |s|
  {
    if |s| > 0 && IsSpace(s[0]) then TrimLeft(s[1..]) else s
  }

  /** Drops trailing white space: the result is the prefix of `s` that ends at its last non-space. */
  function TrimRight(s: string): (r: string)
    ensures |r| <= |s| && r == s[..|r|]
    ensures AllSpace(s[|r|..])
    ensures |r| > 0 ==> !IsSpace(r[|r| - 1])
    decreases |s|
  {
    if |s| > 0 && IsSpace(s[|s| - 1]) then TrimRight(s[..|s| - 1]) else s
  }

  /** Go's `strings.TrimSpace`. */
  function TrimSpace(s: string): string
  {
    TrimRight(TrimLeft(s))
  }

  /** True of the strings that `strings.TrimSpace` maps to "". */
  predicate IsBlank(s: string)
  {
    TrimSpace(s) == ""
  }

  /**
   * TrimSpace cuts `s` into white space, a middle and white space, and the middle
   * neither starts nor ends with white space.
   */
  lemma TrimSpaceSlice(s: string) returns (i: nat, j: nat)
    ensures i <= j <= |s| && TrimSpace(s) == s[i..j]
    ensures AllSpace(s[..i]) && AllSpace(s[j..])
    ensures i < j ==> !IsSpace(s[i]) && !IsSpace(s[j - 1])
  {
    var l := TrimLeft(s);
    i := |s| - |l|;
    var r := TrimRight(l);
    j := i + |r|;
    assert s[i..j] == l[..|r|];
    assert s[j..] == l[|r|..];
    if i < j {
      assert !IsSpace(l[0]);
      assert s[i] == l[0];
    }
  }

  /** A string is blank exactly when every one of its characters is white space. */
  lemma BlankIffAllSpace(s: string)
    ensures IsBlank(s) <==> AllSpace(s)
  {
    var i, j := TrimSpaceSlice(s);
    if IsBlank(s) {
      assert i == j;
      forall k | 0 <= k < |s| ensures IsSpace(s[k]) {
        if k < i { assert s[k] == s[..i][k]; } else { assert s[k] == s[j..][k - j]; }
      }
    } else {
      assert i < j && !IsSpace(s[i]);
    }
  }

  /** A non-blank string trims to a non-empty string that starts and ends with a non-space. */
  lemma TrimmedEnds(s: string)
    requires !IsBlank(s)
    ensures var t := TrimSpace(s); |t| > 0 && !IsSpace(t[0]) && !IsSpace(t[|t| - 1])
  {
    var i, j := TrimSpaceSlice(s);
    assert TrimSpace(s)[0] == s[i];
  }

  /** A string ending in a non-space character is not blank. */
  lemma NotBlankIfLastNotSpace(s: string)
    requires |s| > 0 && !IsSpace(s[|s| - 1])
    ensures !IsBlank(s)
  {
    BlankIffAllSpace(s);
  }

  /** Trimming is idempotent: a trimmed string has nothing left to trim. */
  lemma TrimSpaceIdempotent(s: string)
    ensures TrimSpace(TrimSpace(s)) == TrimSpace(s)
  {
    var t := TrimSpace(s);
    assert TrimLeft(t) == t by {
      if |t| > 0 {
        assert !IsSpace(TrimLeft(s)[0]);
        assert t[0] == TrimLeft(s)[0];
      }
    }
  }

  /** White space added around a string disappears again under TrimSpace. */
  lemma TrimSpacePadding(pre: string, s: string, post: string)
    requires AllSpace(pre) && AllSpace(post)
    ensures TrimSpace(pre + s + post) == TrimSpace(s)
  {
    assert pre + s + post == pre + (s + post);
    TrimLeftPadding(pre, s + post);
    TrimLeftAppend(s, post);
    if TrimLeft(s + post) == TrimLeft(s) + post {
      TrimRightPadding(TrimLeft(s), post);
    } else {
      AllSpaceTrimsToEmpty(TrimLeft(s + post));
    }
  }

  lemma {:induction false} TrimLeftPadding(pre: string, s: string)
    requires AllSpace(pre)
    ensures TrimLeft(pre + s) == TrimLeft(s)
    decreases |pre|
  {
    if |pre| > 0 {
      assert (pre + s)[0] == pre[0];
      assert (pre + s)[1..] == pre[1..] + s;
      TrimLeftPadding(pre[1..], s);
    } else {
      assert pre + s == s;
    }
  }

  lemma {:induction false} TrimRightPadding(s: string, post: string)
    requires AllSpace(post)
    ensures TrimRight(s + post) == TrimRight(s)
    decreases |post|
  {
    if |post| > 0 {
      var n := |s + post|;
      assert (s + post)[n - 1] == post[|post| - 1];
      assert (s + post)[..n - 1] == s + post[..|post| - 1];
      TrimRightPadding(s, post[..|post| - 1]);
    } else {
      assert s + post == s;
    }
  }

  lemma AllSpaceTrimsToEmpty(s: string)
    requires AllSpace(s)
    ensures TrimRight(s) == ""
  {
  }

  /** Trailing white space after `s` survives TrimLeft unless `s` itself is all white space. */
  lemma {:induction false} TrimLeftAppend(s: string, post: string)
    requires AllSpace(post)
    ensures TrimLeft(s + post) == TrimLeft(s) + post || (TrimLeft(s) == "" && AllSpace(TrimLeft(s + post)))
    decreases |s|
  {
    if |s| == 0 {
      assert s + post == post;
    } else if IsSpace(s[0]) {
      assert (s + post)[0] == s[0];
      assert (s + post)[1..] == s[1..] + post;
      TrimLeftAppend(s[1..], post);
    } else {
      assert (s + post)[0] == s[0];
    }
  }

  /** Go's `unicode.ToLower` on the characters whose lower case is an ASCII letter. */
  function LowerChar(c: char): (r: char)
  {
    if 'A' <= c <= 'Z' then (c as int + 32) as char
    else if c == '\U{0130}' then 'i'
    else if c == '\U{212A}' then 'k'
    else c
  }

  /** Go's `strings.ToLower`, character by character. */
  function Lower(s: string): (r: string)
    ensures |r| == |s|
    ensures forall k :: 0 <= k < |s| ==> r[k] == LowerChar(s[k])
  {
    seq(|s|, k requires 0 <= k < |s| => LowerChar(s[k]))
  }

  /** Go's `strings.HasPrefix`. */
  predicate HasPrefix(s: string, prefix: string)
  {
    |prefix| <= |s| && s[..|prefix|] == prefix
  }

  /** `sub` occurs in `s` starting at index `i`. */
  predicate OccursAt(s: string, sub: string, i: int)
  {
    0 <= i <= |s| - |sub| && s[i..i + |sub|] == sub
  }

  /** Go's `strings.Contains`: `sub` occurs at some position of `s`. */
  predicate Contains(s: string, sub: string)
  {
    exists i | 0 <= i <= |s| :: OccursAt(s, sub, i)
  }

  /** Go's `strings.Join`: the parts with `sep` between neighbours. */
  function Join(parts: seq<string>, sep: string): string
    decreases |parts|
  {
    if |parts| == 0 then ""
    else if |parts| == 1 then parts[0]
    else parts[0] + sep + Join(parts[1..], sep)
  }
}

=== FILE: track.dfy ===
/**
 * The Track record of internal/media/track.go and its two renderings: the compact
 * `Label` and the clock-style `HumanDuration`.
 */
module Tracks {
  import opened Wrappers
  import opened Text
  import opened Decimal

  /** The three values `Source` takes in the resolver; any other string is possible in a Track. */
  const SourceYouTube: string := "YouTube"
  const SourceSoundCloud: string := "SoundCloud"
  const SourceUnknown: string := "Unknown"

  /** Go's `time.Second`, in nanoseconds. */
  const Second: int := 1_000_000_000

  /**
   * One playable item. `duration` is a Go `time.Duration` (nanoseconds, 0 for a live
   * stream); the enqueue timestamp `QueuedAt` is not modelled.
   */
  datatype Track = Track(
    id: string,
    title: string,
    author: string,
    webURL: string,
    streamURL: string,
    thumbnail: string,
    duration: int,
    source: string,
    requestedBy: string,
    requestChannelID: string,
    httpHeaders: map<string, string>)

  /** The separator `Label` puts between title and source. */
  const LabelSeparator: string := " — "

  /** `Track.Label`: the trimmed title, the separator, and the source, "Unknown" when empty. */
  function Label(t: Track): (r: string)
    ensures HasPrefix(r, TrimSpace(t.title) + LabelSeparator)
    ensures var src := r[|TrimSpace(t.title) + LabelSeparator|..];
      && src != ""
      && (t.source != "" ==> src == t.source)
      && (t.source == "" ==> src == SourceUnknown)
  {
    var source := if t.source == "" then SourceUnknown else t.source;
    TrimSpace(t.title) + LabelSeparator + source
  }

  /** White space around a title never shows in the label. */
  lemma LabelIgnoresTitlePadding(t: Track, pre: string, post: string)
    requires AllSpace(pre) && AllSpace(post)
    ensures Label(t.(title := pre + t.title + post)) == Label(t)
  {
    TrimSpacePadding(pre, t.title, post);
  }

  /** Go's integer `/`, which truncates toward zero (Dafny's `/` is Euclidean). */
  function GoDiv(a: int, b: int): int
    requires b > 0
  {
    if a >= 0 then a / b else -((-a) / b)
  }

  /** Go's integer `%`: the remainder takes the sign of the dividend. */
  function GoMod(a: int, b: int): int
    requires b > 0
  {
    a - GoDiv(a, b) * b
  }

  /** `int(d.Seconds())`: whole seconds of a duration, truncated toward zero. */
  function WholeSeconds(d: int): int
  {
    GoDiv(d, Second)
  }

  datatype Clock = Clock(hours: int, minutes: int, secs: int)

  /** The hour, minute and second split done by `HumanDuration`. */
  function Decompose(s: int): (c: Clock)
    ensures s >= 0 ==> c.hours >= 0 && 0 <= c.minutes < 60 && 0 <= c.secs < 60
  {
    GoDivMod(s, 3600);
    GoDivMod(GoMod(s, 3600), 60);
    GoDivMod(s, 60);
    Clock(GoDiv(s, 3600), GoDiv(GoMod(s, 3600), 60), GoMod(s, 60))
  }

  /** Go's quotient and remainder put the dividend back together, the remainder sharing its sign. */
  lemma GoDivMod(a: int, b: int)
    requires b > 0
    ensures GoDiv(a, b) * b + GoMod(a, b) == a
    ensures a >= 0 ==> GoDiv(a, b) == a / b && GoMod(a, b) == a % b && 0 <= GoMod(a, b) < b
    ensures a < 0 ==> GoDiv(a, b) <= 0 && GoMod(a, b) == -((-a) % b) && -b < GoMod(a, b) <= 0
  {
    if a < 0 {
      assert (-a) == ((-a) / b) * b + (-a) % b;
    } else {
      assert a == (a / b) * b + a % b;
    }
  }

  /** Taking the remainder by an hour first does not change the remainder by a minute. */
  lemma MinuteRemainder(n: nat)
    ensures (n % 3600) % 60 == n % 60
  {
    var q := n / 3600;
    var r := n % 3600;
    var a := r / 60;
    var b := r % 60;
    assert n == 3600 * q + r;
    assert r == 60 * a + b;
    var m := n / 60;
    assert n == 60 * m + n % 60;
    assert 60 * (m - 60 * q - a) == b - n % 60;
    if m - 60 * q - a > 0 {
      assert false;
    } else if m - 60 * q - a < 0 {
      assert false;
    }
  }

  /** The split loses nothing, and on a non-negative count gives proper minutes and seconds. */
  lemma DecomposeSound(s: int)
    ensures var c := Decompose(s);
      && c.hours * 3600 + c.minutes * 60 + c.secs == s
      && (s >= 0 ==> c.hours == s / 3600 && 0 <= c.minutes < 60 && 0 <= c.secs < 60)
      && (s < 0 ==> c.hours <= 0 && -60 < c.minutes <= 0 && -60 < c.secs <= 0)
  {
    var c := Decompose(s);
    var m := GoMod(s, 3600);
    GoDivMod(s, 3600);
    GoDivMod(m, 60);
    GoDivMod(s, 60);
    if s >= 0 {
      MinuteRemainder(s);
    } else {
      MinuteRemainder(-s);
      assert GoMod(m, 60) == -((-m) % 60);
    }
    assert GoMod(m, 60) == c.secs;
    assert c.minutes * 60 + c.secs == m;
  }

  /** `Track.HumanDuration`: "live" for a zero duration, otherwise `H:MM:SS` or `MM:SS`. */
  function HumanDuration(t: Track): (r: string)
    ensures r == "live" <==> t.duration == 0
  {
    assert ':' !in "live";
    if t.duration == 0 then "live"
    else
      ClockText(Decompose(WholeSeconds(t.duration)))
  }

  /** The clock part of `HumanDuration`: hours only when there is a full one. */
  function ClockText(c: Clock): (r: string)
    ensures ':' in r
  {
    var r := if c.hours > 0 then FormatInt(c.hours) + ":" + Pad2(c.minutes) + ":" + Pad2(c.secs)
      else Pad2(c.minutes) + ":" + Pad2(c.secs);
    var tail := ":" + Pad2(c.secs);
    assert r[|r| - |tail|..] == tail;
    assert r[|r| - |tail|] == ':';
    r
  }

  /** Reads a clock rendering back into seconds: `H:MM:SS` or `MM:SS`, digits only. */
  function ParseClock(text: string): Option<int>
  {
    var parts := SplitColon(text);
    if |parts| == 3 && ParseNat(parts[0]).Some? && ParseNat(parts[1]).Some? && ParseNat(parts[2]).Some? then
      Some(ParseNat(parts[0]).value * 3600 + ParseNat(parts[1]).value * 60 + ParseNat(parts[2]).value)
    else if |parts| == 2 && ParseNat(parts[0]).Some? && ParseNat(parts[1]).Some? then
      Some(ParseNat(parts[0]).value * 60 + ParseNat(parts[1]).value)
    else None
  }

  /** Minutes and seconds render as two two-digit pieces that read back. */
  lemma ClockTail(m: int, sec: int)
    requires 0 <= m < 60 && 0 <= sec < 60
    ensures SplitColon(Pad2(m) + ":" + Pad2(sec)) == [Pad2(m), Pad2(sec)]
    ensures |Pad2(m)| == 2 && |Pad2(sec)| == 2
    ensures ParseNat(Pad2(m)) == Some(m) && ParseNat(Pad2(sec)) == Some(sec)
  {
    ParsePad2(m);
    ParsePad2(sec);
    DigitsHaveNoColon(m);
    DigitsHaveNoColon(sec);
    SplitColonPiece(Pad2(sec), "");
    SplitColonPiece(Pad2(m), Pad2(sec));
  }

  /** Hours in front of the tail split off as their own piece and read back. */
  lemma ClockHours(h: int, m: int, sec: int)
    requires h > 0 && 0 <= m < 60 && 0 <= sec < 60
    ensures SplitColon(FormatInt(h) + ":" + Pad2(m) + ":" + Pad2(sec)) == [FormatInt(h), Pad2(m), Pad2(sec)]
    ensures ParseNat(FormatInt(h)) == Some(h)
  {
    ClockTail(m, sec);
    ParseDigits(h);
    DigitsHaveNoColon(h);
    var rest := Pad2(m) + ":" + Pad2(sec);
    SplitColonPiece(Digits(h), rest);
    assert FormatInt(h) + ":" + Pad2(m) + ":" + Pad2(sec) == Digits(h) + ":" + rest;
  }

  /**
   * A positive duration renders as a clock that reads back to its whole seconds:
   * `H:MM:SS` with unpadded hours when there is a full hour, `MM:SS` otherwise.
   */
  lemma HumanDurationRoundTrip(t: Track)
    requires t.duration > 0
    ensures ParseClock(HumanDuration(t)) == Some(WholeSeconds(t.duration))
    ensures var parts := SplitColon(HumanDuration(t));
      && |parts| == (if WholeSeconds(t.duration) >= 3600 then 3 else 2)
      && |parts[|parts| - 2]| == 2 && |parts[|parts| - 1]| == 2
    ensures var c := Decompose(WholeSeconds(t.duration));
      && c.hours == WholeSeconds(t.duration) / 3600 && 0 <= c.minutes < 60 && 0 <= c.secs < 60
      && SplitColon(HumanDuration(t)) == (if c.hours > 0 then [FormatInt(c.hours)] else []) + [Pad2(c.minutes), Pad2(c.secs)]
      && (c.hours > 0 ==> FormatInt(c.hours)[0] != '0')
  {
    var s := WholeSeconds(t.duration);
    var c := Decompose(s);
    assert HumanDuration(t) == ClockText(c);
    DecomposeSound(s);
    ClockTextRoundTrip(c);
  }

  /** A proper clock renders as pieces that read back to its seconds. */
  lemma ClockTextRoundTrip(c: Clock)
    requires c.hours >= 0 && 0 <= c.minutes < 60 && 0 <= c.secs < 60
    ensures ParseClock(ClockText(c)) == Some(c.hours * 3600 + c.minutes * 60 + c.secs)
    ensures var parts := SplitColon(ClockText(c));
      && |parts| == (if c.hours > 0 then 3 else 2)
      && |parts[|parts| - 2]| == 2 && |parts[|parts| - 1]| == 2
    ensures SplitColon(ClockText(c)) == (if c.hours > 0 then [FormatInt(c.hours)] else []) + [Pad2(c.minutes), Pad2(c.secs)]
    ensures c.hours > 0 ==> FormatInt(c.hours)[0] != '0'
  {
    ClockTail(c.minutes, c.secs);
    if c.hours > 0 {
      ClockHours(c.hours, c.minutes, c.secs);
    }
  }


  /** A positive duration shorter than a second renders as "00:00", not as "live". */
  lemma SubSecondRendersZeroClock(t: Track)
    requires 0 < t.duration < Second
    ensures HumanDuration(t) == "00:00"
  {
    SubSecondIsZeroMinutes(t);
    ZeroClock();
  }

  lemma SubSecondIsZeroMinutes(t: Track)
    requires 0 < t.duration < Second
    ensures HumanDuration(t) == Pad2(0) + ":" + Pad2(0)
  {
    assert WholeSeconds(t.duration) == 0;
    assert Decompose(0) == Clock(0, 0, 0);
    assert ClockText(Clock(0, 0, 0)) == Pad2(0) + ":" + Pad2(0);
  }

  lemma ZeroClock()
    ensures Pad2(0) + ":" + Pad2(0) == "00:00"
  {
    assert Digits(0) == [DigitChar(0)];
  }

}

=== FILE: wrappers.dfy ===
/** Optional values and results, standing in for Go's nil pointers and (value, error) pairs. */
module Wrappers {

  /** A value that may be absent: a nil `*Track`, a missing map entry. */
  datatype Option<+T> = None | Some(value: T)

  /** A computation that either succeeds with a value or fails with an error. */
  datatype Result<+T, +E> = Ok(value: T) | Err(error: E)
}
